=== FILE: README.md ===
# Categorizer, modelled in Dafny

The Categorizer sorts the top-level entries of a source folder into
date-named folders under `dst/OUTPUT`, by copying or by moving them. The
entries are files and directories, and each one's folder is named after its
creation date. The constructor runs a fixed pipeline:

1. Validate the mode, the source and the destination.
2. Take a one-level snapshot of the source. The `OUTPUT` folder is dropped
   from it when it is the target itself.
3. Count the entries whose destination `target/<date>/<name>` does not exist
   yet, and report that plan size to the progress callback.
4. Build the ordered, duplicate-free list of date buckets.
5. Create `OUTPUT` and its bucket folders.
6. Copy or move each entry, skipping it when its destination exists. Each
   transfer bumps the finished counter and the progress percentage and makes
   a callback. A final callback marks the run completed.

The model has five modules:

- `Paths` (paths.dfy): a path is a sequence of names, and `os.path.join(p, n)`
  is `p + [n]`.
- `Plan` (plan.dfy): the pure parts and their lemmas. These are validation,
  the self-reference guard, bucket planning, counting, and the progress
  arithmetic and callback log.
- `Transfer` (transfer.dfy): the transfer loop as a function on values,
  `TransferAll`, a fold of one step, `TransferOne`. It also holds the lemmas
  about what the loop does to the filesystem, the counter and the log.
- `Logic` (logic.dfy): the class `Categorizer`. It holds an abstract
  filesystem and the source object's fields, and has one method per
  pipeline stage with its loops. Each loop method is proved against the
  `Plan`/`Transfer` functions.
- `Scenarios` (scenarios.dfy): two concrete runs, the move run behind the
  finding below and a copy run.

The filesystem is two sets. `paths` holds every existing path, and
`dirPaths` holds those that are directories. `created` maps a source path to
its creation-date key. The progress callback is modelled as a log of
`Event(progress, total, finished, completed)` values. Every `print(e);
exit()` path is an error value (`Outcome.Fail`, `Result.Err`), and the run
stops at the first one.

## Model

| member | source | states |
|---|---|---|
| Plan.IndexTypes | core/Logic.py:15 | `TYPES[type]` succeeds exactly for -2..1. Negative indices count from the end, so -1 selects move. Any other value is `TypeIndexError`. |
| Plan.ParseType | core/Logic.py:31-47 | Only 0 (copy) and 1 (move) are accepted. Anything else is `InvalidType`. |
| Plan.CheckSrc | core/Logic.py:50-70 | The source is accepted iff it exists and is a directory. A missing path and a non-directory give different errors. |
| Plan.CheckDst | core/Logic.py:73-93 | The destination is accepted iff it exists and is a directory. The target is then its `OUTPUT` child. The two failures are distinguished. |
| Plan.RemoveFirst | core/Logic.py:108 | Like `list.remove`, drops the first occurrence only and keeps the order of the rest. Where `list.remove` would raise `ValueError` (the item is absent), the model returns the list unchanged. Line 108 runs only after the membership test of line 106, so that case does not arise. |
| Plan.RemoveFirstCount | core/Logic.py:108 | Removal takes away exactly one copy of the item when present, and nothing else (as a multiset). |
| Plan.GuardSnapshot | core/Logic.py:103-108 | `OUTPUT` is removed from the listed directories exactly when it is listed and `root/OUTPUT` is the target. Otherwise the list is unchanged. With distinct names, `OUTPUT` is then absent. |
| Plan.AddUnseen | core/Logic.py:168-176 | One scan over the dates only appends to the list: the old list stays a prefix, at most one element is added per date, and from an empty list the first bucket is the first date. |
| Plan.Buckets | core/Logic.py:165-176 | The bucket list is no longer than the list of dates, and its first bucket is the first entry's date. |
| Plan.AddUnseenAppend | core/Logic.py:165-176 | Scanning the directories and then the files is one scan of their concatenation. |
| Plan.BucketsElems | core/Logic.py:165-176 | The bucket list has no duplicates, and its elements are exactly the creation dates of the entries. |
| Plan.BucketsOrder | core/Logic.py:165-176 | The buckets appear in the order of the first occurrence of their date. |
| Plan.CountAbsent | core/Logic.py:126-136 | The count of missing destinations is at most the number of entries. It is zero iff every destination exists. |
| Plan.CountAbsentAppend | core/Logic.py:126-136 | Counting the directories and then the files adds up to counting all entries. |
| Plan.CountAbsentMono | core/Logic.py:126-136 | When more paths exist, no more are missing. |
| Plan.Percent | core/Logic.py:234 | The progress is at most 100 while finished <= total, and exactly 100 when all planned items are finished. |
| Plan.PercentMonotone | core/Logic.py:234 | More finished items never report a smaller percentage. |
| Plan.ProgressEvents | core/Logic.py:233-235 | One callback per transfer, the k-th reporting k finished items and their percentage. |
| Plan.RunLog | core/Logic.py:112-252 | A successful run's callback log has two events more than the finished count: it opens with the report `(0, total, 0)` and ends with a completed event carrying the final finished count. |
| Plan.RunLogAt | core/Logic.py:112 | The i-th event of a successful run's log is the initial report, the i-th progress report, or the final completed event. |
| Plan.RunLogShape | core/Logic.py:252 | A successful run's log has finished + 2 events. Exactly the last is completed, and it carries the last progress value (0 if nothing was transferred). Finished counts run 0..finished, and progress stays within 0..100 and never decreases. |
| Transfer.AfterTransfer | core/Logic.py:228-230 | After `shutil.copytree`/`shutil.move`, the destination exists. No other path appears, no path but the source disappears, copy loses nothing, and move removes the source. |
| Transfer.AfterTransferDirs | core/Logic.py:228-230 | The destination is a directory when the source was one, and not one when neither was. No other directory appears, no directory but the source disappears, and a copy removes none. |
| Transfer.TransferEffect | core/Logic.py:228-230 | A transfer creates the destination and keeps the source iff it copies. Every other path is left alone. The destination is a directory iff the source was. |
| Transfer.TransferOneEffect | core/Logic.py:225-235 | One iteration is missing-source error, skip, bucket error, or transfer, each iff its condition holds. A skip or error changes nothing. A transfer counts exactly one more item, then sets the progress and makes one callback, unless the total is zero. |
| Transfer.TransferOne | core/Logic.py:225-235 | One iteration with the date read before the transfer. It skips exactly when the source exists and its destination exists. An error other than division by zero, or a skip, changes nothing. A transfer places the entry, counts one more and makes one callback. |
| Transfer.TransferOneAsWritten | core/Logic.py:225-235 | The iteration as written, with the date read again after the transfer. Under copy it is `TransferOne`. Under move it never reports a transfer, counts nothing and makes no callback. |
| Transfer.TransferAll | core/Logic.py:225-249 | The loop fails only on a zero total or with an error naming one of its entries. |
| Transfer.TransferAllAsWritten | core/Logic.py:225-249 | The loops as written. Under copy they are `TransferAll`. Under move they never count an entry and never make a progress callback. |
| Transfer.MoveOrCopyAll | core/Logic.py:215-256 | A failed loop makes no completed callback. A passing run has placed every entry, and its log gains one progress callback per counted entry and then the completed callback. |
| Transfer.StepKeepsDests | core/Logic.py:226 | No iteration removes a destination that exists. |
| Transfer.AllKeepsDests | core/Logic.py:225-249 | The loop never removes an existing destination. |
| Transfer.AllFrameDirs | core/Logic.py:225-249 | Directories stay existing paths. The loop adds no directory but a destination and removes none but a source, and a copy removes none. |
| Transfer.AllFramePaths | core/Logic.py:225-249 | The loop adds no path but a destination and removes none but a source. Copy removes nothing. |
| Transfer.AllCount | core/Logic.py:225-249 | The counter grows by at most the number of destinations missing at the start. A division by zero needs a zero total and a missing destination. |
| Transfer.AllLog | core/Logic.py:233-235 | A passing loop appends exactly one progress callback per counted item, with the matching percentage. |
| Transfer.AllPlaced | core/Logic.py:225-249 | After a passing loop, every entry is at `target/cdate(name)/name`. |
| Transfer.AllExact | core/Logic.py:225-249 | With distinct names, a passing loop counts exactly the destinations missing at the start. The sources of pre-existing destinations stay. Under move, every other source is gone. |
| Transfer.AllSkipped | core/Logic.py:225-249 | When every entry is already at its destination, the loop passes, changes nothing and has nothing to count. |
| Transfer.CopyRerunSkipsAll | core/Logic.py:225-249 | Rerunning the copy loop on what a successful copy left transfers nothing and counts nothing. |
| Transfer.AllReady | core/Logic.py:225-249 | With the corrected step (date read before the transfer), the loop passes when all sources exist, every bucket is a directory, the names are distinct, the source is not the target, no entry is the target or a folder holding it, and there is a total to divide by. |
| Transfer.AllAppend | core/Logic.py:222-249 | The directory loop followed by the file loop is one loop over directories and then files. |
| Transfer.AsWrittenStep | core/Logic.py:225-249 | The step as written equals the corrected step under copy. Under move, a step that transfers moves the entry and then fails with `Missing(name)`, without counting, progress or callback. |
| Transfer.AsWrittenMoveStopsAtFirst | core/Logic.py:229-233 | As written, a move run with two entries to transfer fails after moving the first. The second stays in the source, and nothing is counted or reported. |
| Transfer.CorrectedMoveMovesAll | core/Logic.py:225-249 | With the date read before the move, a ready move run passes, places every entry, removes each moved source and counts them all. |
| Logic.SkeletonMissesDests | core/Logic.py:191-198 | No destination is the target or a bucket folder. |
| Logic.SkeletonKeepsCount | core/Logic.py:119-136 | Creating the skeleton changes neither which destinations exist nor the planned count. |
| Logic.RunTransferFrame | core/Logic.py:225-249 | After planning and the skeleton, the loop never divides by zero and counts at most the planned total. It only adds destinations and removes sources. |
| Logic.RunTransferPass | core/Logic.py:225-252 | After planning and the skeleton, a passing loop leaves a log that, with the final event, is the log of a run. It places every entry. With distinct names it counts exactly the planned total, keeps the sources of pre-existing destinations and, under move, removes the others. |
| Logic.RunReady | core/Logic.py:184-202 | For placeable entries, once the skeleton exists every entry is ready to transfer. |
| Logic.ExecuteEffect | core/Logic.py:27-28 | With the corrected transfer step, skeleton then transfer never divides by zero and never fails with a configuration error. It succeeds on placeable entries (distinct, existing, none of them the target or a folder holding it), and on success has the log of a run with every entry placed. |
| Logic.ExecuteDirs | core/Logic.py:184-249 | After the skeleton and the transfer stage, no directory is added but the target, a bucket folder or a destination, none is removed but a source, and a copy removes none. |
| Logic.Categorizer.constructor | core/Logic.py:14-19 | The counters start at zero and no callback has been made. |
| Logic.Categorizer.SetType | core/Logic.py:31-47 | Passes iff the value is 0 or 1 and sets the mode to `TYPES[type]`. Otherwise `InvalidType`, with the mode unchanged. |
| Logic.Categorizer.SetSrc | core/Logic.py:50-70 | Passes iff the source exists and is a directory. Otherwise it gives the distinguishing error and leaves `src` unchanged. |
| Logic.Categorizer.SetTarget | core/Logic.py:73-93 | Passes iff the destination exists and is a directory, with the target `dst/OUTPUT`. Otherwise the distinguishing error. |
| Logic.Categorizer.GetCDate | core/Logic.py:139-156 | An entry's date key when it is in the source folder, else `Missing(name)`. |
| Logic.Categorizer.SetAllFilesDirs | core/Logic.py:96-116 | The snapshot is the guarded listing. It passes iff every entry exists. It adds the missing-destination count to the total and makes the initial callback `(progress, total, finished)`. |
| Logic.Categorizer.SetTotalItems | core/Logic.py:119-136 | Passes iff every entry exists, adding the number of entries whose destination is missing. The error names a missing entry. |
| Logic.Categorizer.CountEntry | core/Logic.py:128-131 | One iteration: passes iff the entry is in the source, then counts one more exactly when its destination does not exist; a missing entry fails with `Missing(name)` and counts nothing. |
| Logic.Categorizer.CountNew | core/Logic.py:128-131 | One counting loop adds the number of missing destinations. On failure it names the first entry, in loop order, that is missing from the source; every entry before it exists. |
| Logic.Categorizer.SetTargetFolderStructure | core/Logic.py:159-181 | The bucket list is duplicate-free and holds exactly the entries' dates, in first-seen order, directories before files. |
| Logic.Categorizer.AddBuckets | core/Logic.py:168-171 | One scan appends each date not yet in the list, in order. On failure it names the first entry, in loop order, that is missing from the source. |
| Logic.Categorizer.MakeDir | core/Logic.py:192 | `os.mkdir` succeeds iff the path is new and its parent is a directory. Otherwise nothing changes. |
| Logic.Categorizer.CreateTargetFolders | core/Logic.py:184-202 | Succeeds iff the skeleton can be built. It then creates the target and every bucket folder, leaves existing paths untouched and creates nothing else. Whatever the outcome, it removes no directory. |
| Logic.Categorizer.TransferEntry | core/Logic.py:225-235 | One iteration, with the date read before the transfer, changes the object as `TransferOne` prescribes. |
| Logic.Categorizer.TransferEntryAsWritten | core/Logic.py:225-235 | The iteration as written, with the date read again after the transfer, changes the object as `TransferOneAsWritten` prescribes. |
| Logic.Categorizer.TransferGroup | core/Logic.py:225-235 | One loop of corrected iterations, stopping at the first failure, changes the object as `TransferAll` prescribes. |
| Logic.Categorizer.MoveOrCopyFiles | core/Logic.py:215-256 | With the corrected step, the directory loop, the file loop and the completed callback change the object as `MoveOrCopyAll` prescribes. |
| Logic.Categorizer.Configure | core/Logic.py:14-24 | Mode, source and destination validation, in the source's order. Each configuration error holds iff its condition holds, and the filesystem is untouched. |
| Logic.Categorizer.Categorize | core/Logic.py:25-28 | Planning, skeleton and the corrected transfer. An entry missing from the source stops planning with nothing changed. Whatever the outcome, only the target, bucket folders and destinations are added and only sources removed, as paths and as directories, and a copy removes no directory. When every entry exists, the bucket list is the planned one. Never a division by zero, and success for placeable entries, none of them the target or a folder holding it. On success: the planned total, the bucket list, the log of a run, every entry placed, copy keeping the sources, and move removing them for distinct names. |
| Logic.Categorizer.Execute | core/Logic.py:27-28 | The skeleton then the corrected transfer. Whatever the outcome, it adds only the target, bucket folders and destinations, and removes only sources, as paths and as directories; a copy removes no directory. |
| Logic.Categorizer.Run | core/Logic.py:14-28 | The whole constructor, with the corrected transfer step. Each configuration error holds iff its condition holds and leaves the filesystem unchanged. A valid configuration fixes the mode, source, target and snapshot whatever the outcome. An entry missing from the source stops planning with nothing changed; otherwise the bucket list is the planned one. Only the target, bucket folders and destinations are added and only sources removed, as paths and as directories, and a copy removes no directory. Never a division by zero. A feasible run succeeds, where feasible requires that no entry is the target or a folder holding it. On success: finished <= total (equal for distinct names), the log of a run, every entry at its destination, and the copy/move effect on the sources. |
| Scenarios.MoveScenarioAsWritten | core/Logic.py:229-233 | Moving `b` and `a.txt` as written stops after `b`: `a.txt` stays in the source, and no count or callback is made. |
| Scenarios.MoveScenarioCorrected | core/Logic.py:225-249 | The corrected move places both entries, removes both from the source and counts 2. |
| Scenarios.CopyScenario | core/Logic.py:225-252 | Copying `a.txt` and `b` places both under their dates and keeps both sources. It counts 2, and the completed callback reports 100 percent, 2 of 2. |

## Left out

- The real `os` and `shutil` calls are modelled on a set of paths. A
  directory is one atomic entry, so its contents, and the nesting of one path
  inside another, are not modelled.
- `os.walk`'s listing is taken as two given name sequences, in the order the
  listing yields them.
- Reading the creation time (`os.path.getctime` and its date formatting) is
  the uninterpreted function `created`.
- `print` and `copy_or_move_print` are left out, and so is the unused `json`
  import.
- `exit()` becomes an error value. The process-level halt and its message are
  not modelled.
- The progress callback is a log of events. What the GUI does with them is
  not part of this model.
- Plan.Percent: the source divides as floats and truncates with `int()`. The
  model uses natural-number division, which agrees for the non-negative
  counts involved. The stored float `self.progress` is kept as that integer.
- Transfer.TransferOneEffect: when the bucket folder `target/<date>` is not
  a directory, the step fails with `FsError` and changes nothing. This covers
  a bucket that does not exist at all. The source does not fail there:
  `shutil.copytree` creates the missing parents, `shutil.copy` writes a file
  named after the bucket, and `shutil.move` renames the entry to the bucket
  path. A bucket that is a regular file may likewise be overwritten by a copy
  or move. The same branch is in Transfer.TransferOne,
  Transfer.TransferOneAsWritten, Logic.Categorizer.TransferEntry and
  Logic.Categorizer.TransferEntryAsWritten. A full run reaches it only when
  a bucket path already exists as a regular file: create_target_folders
  (line 197) skips any existing bucket path, file or not, and makes every
  missing bucket a directory (Logic.RunReady). The model's run then fails
  with `FsError`; the source, for a file entry in copy mode, overwrites that
  bucket file (line 242), counts the entry and carries on.
- Transfer.TransferOne: the bucket case above is not modelled.
- Transfer.TransferOneAsWritten: the bucket case above is not modelled.
- Logic.Categorizer.TransferEntry: the bucket case above is not modelled.
- Logic.Categorizer.TransferEntryAsWritten: the bucket case above is not
  modelled.
- Logic.Categorizer.Run: the class pipeline (Run, Categorize, Execute,
  MoveOrCopyFiles, TransferGroup, TransferEntry, Logic.ExecuteEffect and
  Transfer.AllReady) runs the corrected transfer step from the Findings
  table, which reads the creation date before the copy or move. Only
  Transfer.TransferOneAsWritten, Transfer.TransferAllAsWritten and
  Logic.Categorizer.TransferEntryAsWritten model the step as written. As
  written, a move run with two entries to transfer stops after the first
  (Transfer.AsWrittenMoveStopsAtFirst). "A feasible run succeeds" holds of
  the corrected program, not of the move run as written.
- Logic.Categorizer.Run: an entry that is the target or holds it (the
  destination is `src/A`, or lies below `src/A`) is not modelled as a
  failure. The guard of lines 106-107 drops only `OUTPUT`, and only when the
  destination is the source itself. For `src/A` the source then copies or
  moves `A` into its own subtree: `shutil.move` raises "Cannot move a
  directory into itself", and `copytree` recurses until an `OSError`. The
  atomic transfer of this model would succeed there. So the success clauses
  of Run, Categorize, Execute, Logic.ExecuteEffect and Transfer.AllReady
  require, through Plan.Placeable and Transfer.Ready, that no entry is the
  target or a folder holding it.
- Plan.GuardSnapshot: paths are canonical sequences of names, so the test of
  line 107, a string comparison of `os.path.join(root, "OUTPUT")` with the
  target, is modelled as path equality. Two spellings of the same folder
  (relative and absolute, `./x`, a symbolic link) are not modelled. With
  them, the source keeps `OUTPUT` in the listing and copies or moves it into
  itself.
- Plan.IndexTypes: the mode is an integer. The default argument
  `type: int = 0` of line 14 is not modelled, and a caller always passes the
  mode. A non-integer argument is not modelled either. That fails at line 15
  with an uncaught `TypeError`, except a `bool`, which Python accepts as 0
  or 1.
- Logic.Categorizer.MakeDir: permission, space and device failures are not
  modelled. `mkdir` fails only when the path exists or its parent is not a
  directory.
- The progress callback's own behaviour, any concurrency, and other processes
  changing the filesystem mid-run are out of scope. The run is one
  sequential owner of the filesystem.

## Findings

| source | as written | input that shows it | evidently intended | confidence | as-written member | corrected member |
|---|---|---|---|---|---|---|
| core/Logic.py:230-232 | In move mode, after `shutil.move` the directory loop calls `get_cdate(folder)` again for the printed destination. The source entry is gone, so the lookup fails and `get_cdate` exits the process. The `SystemExit` is not caught by `except Exception`. | Move mode, source `s` holding folder `b` and file `a.txt`, neither yet at its destination: `b` is moved, then the run stops before counting it, calling back, or moving `a.txt`. | Every entry is moved and counted, as in copy mode. The date is read once, before the move. | high, not executed | Transfer.AsWrittenMoveStopsAtFirst | Transfer.CorrectedMoveMovesAll |
| core/Logic.py:244-246 | The file loop does the same: after `shutil.move(file)` it calls `get_cdate(file)` on the moved source, which ends the run. | Move mode, source holding files `x` and `y`, neither at its destination: `x` is moved, then the run stops with `y` untouched and nothing counted. | Every file is moved and counted. | high, not executed | Transfer.AsWrittenMoveStopsAtFirst | Transfer.CorrectedMoveMovesAll |

=== FILE: logic.dfy ===
/** The Categorizer of core/Logic.py. The object owns an abstract view of the
    filesystem (`paths` holds every path that exists, `dirPaths` those that
    are directories, `created` gives an entry's creation-date key) and the
    fields the source keeps: the mode, the source root, the target, the
    snapshot, the counters, the bucket list and the log of progress callbacks.
    Each stage of the pipeline is a method that updates them in place. */
module Logic {
  import opened Paths
  import opened Plan
  import opened Transfer

  /** A destination is two levels below the target, so creating the target
      and its bucket folders never creates a destination. */
  lemma SkeletonMissesDests(c: Config, keys: seq<DateKey>, n: Name)
    ensures Dst(c, n) != c.target
    ensures Dst(c, n) !in Elems(BucketPaths(c.target, keys))
  {
    assert |Dst(c, n)| == |c.target| + 2;
    forall k | 0 <= k < |keys| ensures |BucketPaths(c.target, keys)[k]| == |c.target| + 1 {
    }
  }

  /** Creating the skeleton does not change which destinations exist, so the
      planned total still counts the destinations missing when the transfer starts. */
  lemma SkeletonKeepsCount(c: Config, P1: set<Path>, keys: seq<DateKey>, names: seq<Name>, P2: set<Path>)
    requires P1 <= P2 <= P1 + {c.target} + Elems(BucketPaths(c.target, keys))
    ensures forall n :: Dst(c, n) in P2 <==> Dst(c, n) in P1
    ensures CountAbsent(P2, DestsOf(c, names)) == CountAbsent(P1, DestsOf(c, names))
  {
    var ds := DestsOf(c, names);
    forall n ensures Dst(c, n) in P2 <==> Dst(c, n) in P1 {
      SkeletonMissesDests(c, keys, n);
    }
    forall k | 0 <= k < |ds| ensures ds[k] in P1 <==> ds[k] in P2 {
      assert ds[k] == Dst(c, names[k]);
    }
    CountAbsentSame(P1, P2, ds);
  }

  /** The initial state of the transfer stage: the filesystem left by the
      skeleton, the counters at zero and the first callback made. */
  function StartState(c: Config, P2: set<Path>, D2: set<Path>): State
  {
    State(P2, D2, 0, 0, [Event(0, c.total, 0, false)])
  }

  /** The transfer stage of a run never divides by zero, counts at most the
      planned total, and only adds destinations and removes sources. */
  lemma RunTransferFrame(c: Config, P1: set<Path>, keys: seq<DateKey>, names: seq<Name>,
                         P2: set<Path>, D2: set<Path>, o: Outcome, st': State)
    requires P1 <= P2 <= P1 + {c.target} + Elems(BucketPaths(c.target, keys))
    requires c.total == CountAbsent(P1, DestsOf(c, names))
    requires (o, st') == TransferAll(c, StartState(c, P2, D2), names)
    ensures o != Fail(DivisionByZero)
    ensures st'.finished <= c.total
    ensures st'.paths <= P2 + Elems(DestsOf(c, names))
    ensures P2 - Elems(SourcesOf(c, names)) <= st'.paths
    ensures c.mode == Copy ==> P2 <= st'.paths
  {
    SkeletonKeepsCount(c, P1, keys, names, P2);
    AllCount(c, StartState(c, P2, D2), names);
    AllFramePaths(c, StartState(c, P2, D2), names);
  }

  /** A transfer stage that passes reports the callback log of a run, leaves
      every entry at its destination and, with distinct names, counts exactly
      the planned total, keeps the sources of pre-existing destinations and,
      when moving, removes every other source. */
  lemma RunTransferPass(c: Config, P1: set<Path>, keys: seq<DateKey>, names: seq<Name>,
                        P2: set<Path>, D2: set<Path>, st': State)
    requires P1 <= P2 <= P1 + {c.target} + Elems(BucketPaths(c.target, keys))
    requires c.total == CountAbsent(P1, DestsOf(c, names))
    requires (Pass, st') == TransferAll(c, StartState(c, P2, D2), names)
    ensures st'.log + [Event(st'.progress, c.total, st'.finished, true)] == RunLog(c.total, st'.finished)
    ensures forall n :: n in names ==> Dst(c, n) in st'.paths
    ensures NoDup(names) ==>
      && st'.finished == c.total
      && (forall n :: n in names && Dst(c, n) in P1 ==> c.src + [n] in st'.paths)
      && (c.mode == Move ==> forall n :: n in names && Dst(c, n) !in P1 ==> c.src + [n] !in st'.paths)
  {
    var st := StartState(c, P2, D2);
    assert st'.log + [Event(st'.progress, c.total, st'.finished, true)] == RunLog(c.total, st'.finished) by {
      AllLog(c, st, names);
      assert st'.progress == Percent(st'.finished, c.total) by {
        if st'.finished == 0 {
          assert st'.progress == 0 == Percent(0, c.total);
        }
      }
      assert st'.log == [Event(0, c.total, 0, false)] + ProgressEvents(c.total, 0, st'.finished);
    }
    assert forall n :: n in names ==> Dst(c, n) in st'.paths by {
      AllPlaced(c, st, names);
    }
    if NoDup(names) {
      SkeletonKeepsCount(c, P1, keys, names, P2);
      AllExact(c, st, names);
    }
  }

  /** On a feasible input, after the skeleton every entry is ready to be
      transferred: its source exists and its bucket folder is a directory. */
  lemma RunReady(c: Config, P1: set<Path>, D1: set<Path>, keys: seq<DateKey>, names: seq<Name>,
                 P2: set<Path>, D2: set<Path>)
    requires P2 == P1 + {c.target} + Elems(BucketPaths(c.target, keys))
    requires D2 == D1 + (({c.target} + Elems(BucketPaths(c.target, keys))) - P1)
    requires forall n :: n in names ==> c.src + [n] in P1 && !(c.src + [n] <= c.target)
    requires forall n :: n in names && BucketOf(c, n) in P1 ==> BucketOf(c, n) in D1
    requires forall n :: n in names ==> c.created(c.src + [n]) in keys
    requires NoDup(names) && c.src != c.target
    ensures Ready(c, names, P2, D2)
  {
    forall n | n in names
      ensures BucketOf(c, n) in D2
    {
      var k :| 0 <= k < |keys| && keys[k] == c.created(c.src + [n]);
      assert BucketPaths(c.target, keys)[k] == BucketOf(c, n);
    }
  }

  /** create_target_folders then move_or_copy_files, on values: started on
      the filesystem the skeleton left, with the planned total and a bucket
      key for every entry, the run never divides by zero nor fails with a
      configuration error, succeeds on placeable entries, and on success
      reports the callback log of a run with every entry at its destination. */
  lemma ExecuteEffect(c: Config, P1: set<Path>, D1: set<Path>, keys: seq<DateKey>, names: seq<Name>,
                      P2: set<Path>, D2: set<Path>, r: Outcome, fin: State)
    requires D1 <= P1
    requires c.total == CountAbsent(P1, DestsOf(c, names))
    requires forall n :: n in names ==> c.created(c.src + [n]) in keys
    requires P2 == P1 + {c.target} + Elems(BucketPaths(c.target, keys))
    requires D2 == D1 + (({c.target} + Elems(BucketPaths(c.target, keys))) - P1)
    requires (r, fin) == MoveOrCopyAll(c, StartState(c, P2, D2), names)
    ensures r.Fail? ==> !IsConfigError(r.error)
    ensures r != Fail(DivisionByZero)
    ensures Placeable(P1, D1, c.created, c.src, c.target, names) ==> r.Pass?
    ensures fin.finished <= c.total
    ensures fin.paths <= P2 + Elems(DestsOf(c, names))
    ensures P1 - Elems(SourcesOf(c, names)) <= fin.paths
    ensures c.mode == Copy ==> P1 <= fin.paths
    ensures r.Pass? ==>
      && fin.log == RunLog(c.total, fin.finished)
      && (forall n :: n in names ==> Dst(c, n) in fin.paths)
    ensures r.Pass? && NoDup(names) ==>
      && fin.finished == c.total
      && (forall n :: n in names && Dst(c, n) in P1 ==> c.src + [n] in fin.paths)
      && (c.mode == Move ==> forall n :: n in names && Dst(c, n) !in P1 ==> c.src + [n] !in fin.paths)
  {
    var st := StartState(c, P2, D2);
    var (o, st') := TransferAll(c, st, names);
    RunTransferFrame(c, P1, keys, names, P2, D2, o, st');
    if o.Pass? {
      RunTransferPass(c, P1, keys, names, P2, D2, st');
    }
    if Placeable(P1, D1, c.created, c.src, c.target, names) {
      RunReady(c, P1, D1, keys, names, P2, D2);
      AllReady(c, st, names);
    }
  }

  /** Entry `i` is the first of `names` missing from the source folder. */
  lemma FirstMissing(paths: set<Path>, src: Path, names: seq<Name>, i: nat)
    requires i < |names| && src + [names[i]] !in paths
    requires forall n :: n in names[..i] ==> src + [n] in paths
    ensures names[i] in names && !(forall n :: n in names ==> src + [n] in paths)
    ensures exists k :: 0 <= k < |names| && names[k] == names[i] &&
                        src + [names[k]] !in paths && forall j :: 0 <= j < k ==> src + [names[j]] in paths
  {
    assert forall j :: 0 <= j < i ==> names[j] in names[..i];
  }

  /** The directories after the skeleton and the transfer stage: none is
      added but the target, a bucket folder or a destination, none is removed
      but a source, and a copy removes none. */
  lemma ExecuteDirs(c: Config, D1: set<Path>, keys: seq<DateKey>, names: seq<Name>,
                    P2: set<Path>, D2: set<Path>, fin: State)
    requires D2 <= P2
    requires D1 <= D2 <= D1 + {c.target} + Elems(BucketPaths(c.target, keys))
    requires fin == MoveOrCopyAll(c, StartState(c, P2, D2), names).1
    ensures fin.dirPaths <= D1 + {c.target} + Elems(BucketPaths(c.target, keys)) + Elems(DestsOf(c, names))
    ensures D1 - Elems(SourcesOf(c, names)) <= fin.dirPaths
    ensures c.mode == Copy ==> D1 <= fin.dirPaths
  {
    AllFrameDirs(c, StartState(c, P2, D2), names);
  }

  class Categorizer {
    // The filesystem the run works on.
    var paths: set<Path>
    var dirPaths: set<Path>
    const created: Path -> DateKey

    // The fields of the source object.
    var mode: Mode
    var src: Path
    var target: Path
    var dirs: seq<Name>
    var files: seq<Name>
    var totalItems: nat
    var finishItems: nat
    var progress: nat
    var targetFolderStructure: seq<DateKey>
    var log: seq<Event>

    /** Every directory is a path that exists. */
    ghost predicate Valid()
      reads this`paths, this`dirPaths
    {
      dirPaths <= paths
    }

    /** The snapshot in transfer order: directories first, then files. */
    function Entries(): seq<Name>
      reads this`dirs, this`files
    {
      dirs + files
    }

    /** The creation-date bucket of a source entry. */
    function Bucket(n: Name): DateKey
      reads this`src
    {
      created(src + [n])
    }

    /** `target/cdate(name)/name`, where a transferred entry lands. */
    function Dest(n: Name): Path
      reads this`src, this`target
    {
      DestOf(target, created, src, n)
    }

    /** Lines 16-19: the counters start at zero and no callback has been made. */
    constructor (paths: set<Path>, dirPaths: set<Path>, created: Path -> DateKey)
      requires dirPaths <= paths
      ensures Valid()
      ensures this.paths == paths && this.dirPaths == dirPaths
      ensures progress == 0 && finishItems == 0 && totalItems == 0 && log == []
    {
      this.paths := paths;
      this.dirPaths := dirPaths;
      this.created := created;
      mode := Copy;
      src := [];
      target := [];
      dirs := [];
      files := [];
      totalItems := 0;
      finishItems := 0;
      progress := 0;
      targetFolderStructure := [];
      log := [];
    }

    // -------------------------------------------------------------------------
    // Validation

    /** set_type. */
    method SetType(t: int) returns (r: Outcome)
      modifies this`mode
      ensures r.Pass? <==> t == 0 || t == 1
      ensures r.Pass? ==> mode == Types[t]
      ensures r.Fail? ==> r.error == InvalidType && mode == old(mode)
    {
      match ParseType(t)
      case Ok(m) =>
        mode := m;
        r := Pass;
      case Err(e) =>
        r := Fail(e);
    }

    /** set_src. */
    method SetSrc(s: Path) returns (r: Outcome)
      modifies this`src
      ensures r.Pass? <==> s in paths && s in dirPaths
      ensures r.Pass? ==> src == s
      ensures r.Fail? ==> src == old(src)
      ensures r == Fail(SrcInvalid) <==> s !in paths
      ensures r == Fail(SrcNotDirectory) <==> s in paths && s !in dirPaths
    {
      match CheckSrc(paths, dirPaths, s)
      case Ok(p) =>
        src := p;
        r := Pass;
      case Err(e) =>
        r := Fail(e);
    }

    /** set_target. */
    method SetTarget(dst: Path) returns (r: Outcome)
      modifies this`target
      ensures r.Pass? <==> dst in paths && dst in dirPaths
      ensures r.Pass? ==> target == dst + [OutputFolderName]
      ensures r.Fail? ==> target == old(target)
      ensures r == Fail(DstInvalid) <==> dst !in paths
      ensures r == Fail(DstNotDirectory) <==> dst in paths && dst !in dirPaths
    {
      match CheckDst(paths, dirPaths, dst)
      case Ok(p) =>
        assert p == Parent(p) + [p[|dst|]];
        target := p;
        r := Pass;
      case Err(e) =>
        r := Fail(e);
    }

    // -------------------------------------------------------------------------
    // Snapshot and planning

    /** get_cdate: the creation-date key of a source entry, or the error that
        names the entry when it is not in the source folder. */
    function GetCDate(n: Name): (r: Result<DateKey>)
      reads this`src, this`paths
      ensures r.Ok? <==> src + [n] in paths
      ensures r.Ok? ==> r.value == Bucket(n)
      ensures r.Err? ==> r.error == Missing(n)
    {
      if src + [n] in paths then Ok(created(src + [n])) else Err(Missing(n))
    }

    /** set_all_files_dirs: keeps the one-level listing of the source (given as
        `listedDirs` and `listedFiles`, in the order the listing yields them),
        drops OUTPUT when it is the target itself, counts what is still to
        transfer and reports the plan size to the callback. */
    method SetAllFilesDirs(listedDirs: seq<Name>, listedFiles: seq<Name>) returns (r: Outcome)
      modifies this`dirs, this`files, this`totalItems, this`log
      ensures dirs == GuardSnapshot(src, target, listedDirs) && files == listedFiles
      ensures r.Pass? <==> forall n :: n in Entries() ==> src + [n] in paths
      ensures r.Pass? ==>
        totalItems == old(totalItems) + CountAbsent(paths, Dests(target, created, src, Entries()))
      ensures r.Pass? ==> log == old(log) + [Event(progress, totalItems, finishItems, false)]
      ensures r.Fail? ==>
        r.error.Missing? && r.error.name in Entries() && src + [r.error.name] !in paths
        && log == old(log)
    {
      dirs := GuardSnapshot(src, target, listedDirs);
      files := listedFiles;
      r := SetTotalItems();
      if r.Fail? {
        return;
      }
      log := log + [Event(progress, totalItems, finishItems, false)];
    }

    /** set_total_items: the entries whose destination does not exist yet. */
    method SetTotalItems() returns (r: Outcome)
      modifies this`totalItems
      ensures r.Pass? <==> forall n :: n in Entries() ==> src + [n] in paths
      ensures r.Pass? ==>
        totalItems == old(totalItems) + CountAbsent(paths, Dests(target, created, src, Entries()))
      ensures r.Fail? ==>
        r.error.Missing? && r.error.name in Entries() && src + [r.error.name] !in paths
    {
      r := CountNew(dirs);
      if r.Fail? {
        return;
      }
      r := CountNew(files);
      if r.Fail? {
        return;
      }
      DestsAppend(target, created, src, dirs, files);
      CountAbsentAppend(paths, Dests(target, created, src, dirs), Dests(target, created, src, files));
    }

    /** One iteration of set_total_items: the entry's destination, counted
        when it does not exist yet. */
    method CountEntry(n: Name) returns (r: Outcome)
      modifies this`totalItems
      ensures r.Pass? <==> src + [n] in paths
      ensures r.Pass? ==> totalItems == old(totalItems) + (if Dest(n) in paths then 0 else 1)
      ensures r.Fail? ==> r == Fail(Missing(n)) && totalItems == old(totalItems)
    {
      var date := GetCDate(n);
      if date.Err? {
        return Fail(date.error);
      }
      var path := target + [date.value] + [n];
      if path !in paths {
        totalItems := totalItems + 1;
      }
      r := Pass;
    }

    /** One loop of set_total_items. */
    method CountNew(names: seq<Name>) returns (r: Outcome)
      modifies this`totalItems
      ensures r.Pass? <==> forall n :: n in names ==> src + [n] in paths
      ensures r.Pass? ==>
        totalItems == old(totalItems) + CountAbsent(paths, Dests(target, created, src, names))
      ensures r.Fail? ==>
        r.error.Missing? && r.error.name in names && src + [r.error.name] !in paths
      // The loop stops at the first entry missing from the source.
      ensures r.Fail? ==> exists i :: 0 <= i < |names| && names[i] == r.error.name &&
                            src + [names[i]] !in paths && forall j :: 0 <= j < i ==> src + [names[j]] in paths
    {
      ghost var ds := Dests(target, created, src, names);
      var i := 0;
      while i < |names|
        invariant 0 <= i <= |names|
        invariant forall n :: n in names[..i] ==> src + [n] in paths
        invariant totalItems == old(totalItems) + CountAbsent(paths, ds[..i])
      {
        r := CountEntry(names[i]);
        if r.Fail? {
          FirstMissing(paths, src, names, i);
          return;
        }
        TakeOneMore(names, i);
        CountDestsStep(paths, target, created, src, names, i);
        i := i + 1;
      }
      assert ds[..|names|] == ds && names[..|names|] == names;
      r := Pass;
    }

    /** set_target_folder_structure: the distinct buckets, in the order they
        are first met scanning directories and then files. */
    method SetTargetFolderStructure() returns (r: Outcome)
      modifies this`targetFolderStructure
      ensures r.Pass? <==> forall n :: n in Entries() ==> src + [n] in paths
      ensures r.Pass? ==> targetFolderStructure == Buckets(DatesOf(created, src, Entries()))
      ensures r.Pass? ==> NoDup(targetFolderStructure)
      ensures r.Pass? ==> forall n :: n in Entries() ==> Bucket(n) in targetFolderStructure
      ensures r.Pass? ==> forall k :: k in targetFolderStructure ==> exists n :: n in Entries() && Bucket(n) == k
      ensures r.Pass? ==> FirstSeenOrder(DatesOf(created, src, Entries()), targetFolderStructure)
      ensures r.Fail? ==>
        r.error.Missing? && r.error.name in Entries() && src + [r.error.name] !in paths
    {
      targetFolderStructure := [];
      r := AddBuckets(dirs);
      if r.Fail? {
        return;
      }
      r := AddBuckets(files);
      if r.Fail? {
        return;
      }
      PlannedBuckets(created, src, dirs, files);
    }

    /** One loop of set_target_folder_structure. */
    method AddBuckets(names: seq<Name>) returns (r: Outcome)
      modifies this`targetFolderStructure
      ensures r.Pass? <==> forall n :: n in names ==> src + [n] in paths
      ensures r.Pass? ==>
        targetFolderStructure == AddUnseen(old(targetFolderStructure), DatesOf(created, src, names))
      ensures r.Fail? ==>
        r.error.Missing? && r.error.name in names && src + [r.error.name] !in paths
      // The loop stops at the first entry missing from the source.
      ensures r.Fail? ==> exists i :: 0 <= i < |names| && names[i] == r.error.name &&
                            src + [names[i]] !in paths && forall j :: 0 <= j < i ==> src + [names[j]] in paths
    {
      ghost var ds := DatesOf(created, src, names);
      var i := 0;
      while i < |names|
        invariant 0 <= i <= |names|
        invariant forall j :: 0 <= j < i ==> src + [names[j]] in paths
        invariant targetFolderStructure == AddUnseen(old(targetFolderStructure), ds[..i])
      {
        var date := GetCDate(names[i]);
        if date.Err? {
          return Fail(date.error);
        }
        assert ds[..i + 1][..i] == ds[..i] && ds[i] == date.value;
        if date.value !in targetFolderStructure {
          targetFolderStructure := targetFolderStructure + [date.value];
        }
        i := i + 1;
      }
      assert ds[..|names|] == ds;
      r := Pass;
    }

    // -------------------------------------------------------------------------
    // Destination skeleton

    /** os.mkdir: creates `p` as a directory; fails when `p` exists or its
        parent is not a directory. */
    method MakeDir(p: Path) returns (r: Outcome)
      requires Valid()
      modifies this`paths, this`dirPaths
      ensures Valid()
      ensures r.Pass? <==> p !in old(paths) && Parent(p) in old(dirPaths)
      ensures r.Pass? ==> paths == old(paths) + {p} && dirPaths == old(dirPaths) + {p}
      ensures r.Fail? ==> r.error == FsError(p) && paths == old(paths) && dirPaths == old(dirPaths)
    {
      if p in paths || Parent(p) !in dirPaths {
        return Fail(FsError(p));
      }
      paths := paths + {p};
      dirPaths := dirPaths + {p};
      r := Pass;
    }

    /** create_target_folders: the target, then `target/k` for every bucket,
        each only when it does not exist yet. */
    method CreateTargetFolders() returns (r: Outcome)
      requires Valid()
      modifies this`paths, this`dirPaths
      ensures Valid()
      ensures r.Pass? <==> SkeletonBuildable(old(paths), old(dirPaths), target, targetFolderStructure)
      ensures r.Pass? ==>
        paths == old(paths) + {target} + Elems(BucketPaths(target, targetFolderStructure))
      ensures r.Pass? ==>
        dirPaths == old(dirPaths)
                    + (({target} + Elems(BucketPaths(target, targetFolderStructure))) - old(paths))
      ensures r.Fail? ==> r.error.FsError?
      ensures old(paths) <= paths <= old(paths) + {target} + Elems(BucketPaths(target, targetFolderStructure))
      ensures dirPaths - old(dirPaths) == paths - old(paths)
      ensures old(dirPaths) <= dirPaths
    {
      ghost var bs := BucketPaths(target, targetFolderStructure);
      if target !in paths {
        r := MakeDir(target);
        if r.Fail? {
          return;
        }
      }
      var i := 0;
      while i < |targetFolderStructure|
        invariant 0 <= i <= |targetFolderStructure|
        invariant Valid()
        invariant target in paths
        invariant target in dirPaths <==> target in old(dirPaths) || target !in old(paths)
        invariant paths == old(paths) + {target} + Elems(bs[..i])
        invariant dirPaths == old(dirPaths) + (({target} + Elems(bs[..i])) - old(paths))
        invariant target !in dirPaths ==> forall j :: 0 <= j < i ==> bs[j] in old(paths)
        invariant target !in old(paths) ==> Parent(target) in old(dirPaths)
      {
        var p := target + [targetFolderStructure[i]];
        assert bs[i] == p && Parent(p) == target;
        assert Elems(bs[..i + 1]) == Elems(bs[..i]) + {p} by {
          assert bs[..i + 1] == bs[..i] + [p];
        }
        if p !in paths {
          r := MakeDir(p);
          if r.Fail? {
            assert targetFolderStructure[i] in targetFolderStructure && p !in old(paths);
            return;
          }
        }
        i := i + 1;
      }
      assert bs[..|bs|] == bs;
      forall k | k in targetFolderStructure && target !in dirPaths
        ensures target + [k] in old(paths)
      {
        var j :| 0 <= j < |targetFolderStructure| && targetFolderStructure[j] == k;
        assert bs[j] == target + [k];
      }
      r := Pass;
    }
  
    // -------------------------------------------------------------------------
    // Transfer

    /** What the transfer stage reads. */
    function TransferConfig(): Config
      reads this`mode, this`target, this`src, this`totalItems
    {
      Config(mode, target, created, src, totalItems)
    }

    /** What the transfer stage changes. */
    function TransferState(): State
      reads this`paths, this`dirPaths, this`finishItems, this`progress, this`log
    {
      State(paths, dirPaths, finishItems, progress, log)
    }

    /** One iteration of move_or_copy_files, reading the creation date once,
        before the entry is copied or moved. */
    method TransferEntry(n: Name) returns (r: Result<bool>)
      requires Valid()
      modifies this`paths, this`dirPaths, this`finishItems, this`progress, this`log
      ensures Valid()
      ensures (r, TransferState()) == TransferOne(TransferConfig(), old(TransferState()), n)
    {
      TransferOneEffect(TransferConfig(), TransferState(), n);
      var date := GetCDate(n);
      if date.Err? {
        return Err(date.error);
      }
      var dest := target + [date.value] + [n];
      if dest in paths {
        return Ok(false);
      }
      var bucket := target + [date.value];
      if bucket !in dirPaths {
        return Err(FsError(bucket));
      }
      var s := src + [n];
      var isDir := s in dirPaths;
      ghost var p, d := paths, dirPaths;
      if mode == Move {
        paths := paths - {s};
        dirPaths := dirPaths - {s};
      }
      paths := paths + {dest};
      if isDir {
        dirPaths := dirPaths + {dest};
      }
      assert paths == AfterTransfer(mode, p, s, dest);
      assert dirPaths == AfterTransferDirs(mode, d, s, dest);
      finishItems := finishItems + 1;
      if totalItems == 0 {
        return Err(DivisionByZero);
      }
      progress := Percent(finishItems, totalItems);
      log := log + [ProgressEvent(totalItems, finishItems)];
      r := Ok(true);
    }

    /** The same iteration as the source writes it: the creation date is read
        again after the transfer, for the printed destination. */
    method TransferEntryAsWritten(n: Name) returns (r: Result<bool>)
      requires Valid()
      modifies this`paths, this`dirPaths, this`finishItems, this`progress, this`log
      ensures Valid()
      ensures (r, TransferState()) == TransferOneAsWritten(TransferConfig(), old(TransferState()), n)
    {
      TransferOneEffect(TransferConfig(), TransferState(), n);
      var date := GetCDate(n);
      if date.Err? {
        return Err(date.error);
      }
      var dest := target + [date.value] + [n];
      if dest in paths {
        return Ok(false);
      }
      var bucket := target + [date.value];
      if bucket !in dirPaths {
        return Err(FsError(bucket));
      }
      var s := src + [n];
      var isDir := s in dirPaths;
      ghost var p, d := paths, dirPaths;
      if mode == Move {
        paths := paths - {s};
        dirPaths := dirPaths - {s};
      }
      paths := paths + {dest};
      if isDir {
        dirPaths := dirPaths + {dest};
      }
      assert paths == AfterTransfer(mode, p, s, dest);
      assert dirPaths == AfterTransferDirs(mode, d, s, dest);
      var again := GetCDate(n);
      if again.Err? {
        return Err(again.error);
      }
      finishItems := finishItems + 1;
      if totalItems == 0 {
        return Err(DivisionByZero);
      }
      progress := Percent(finishItems, totalItems);
      log := log + [ProgressEvent(totalItems, finishItems)];
      r := Ok(true);
    }

    /** One loop of move_or_copy_files over `names`, stopping at the first
        failure. */
    method TransferGroup(names: seq<Name>) returns (r: Outcome)
      requires Valid()
      modifies this`paths, this`dirPaths, this`finishItems, this`progress, this`log
      ensures Valid()
      ensures (r, TransferState()) == TransferAll(TransferConfig(), old(TransferState()), names)
    {
      var i := 0;
      while i < |names|
        invariant 0 <= i <= |names|
        invariant Valid()
        invariant TransferAll(TransferConfig(), old(TransferState()), names)
               == TransferAll(TransferConfig(), TransferState(), names[i..])
      {
        var step := TransferEntry(names[i]);
        assert names[i..][0] == names[i] && names[i..][1..] == names[i + 1..];
        if step.Err? {
          return Fail(step.error);
        }
        i := i + 1;
      }
      assert names[i..] == [];
      r := Pass;
    }

    /** move_or_copy_files: the directories, then the files, then the final
        callback with `compleated` set. */
    method MoveOrCopyFiles() returns (r: Outcome)
      requires Valid()
      modifies this`paths, this`dirPaths, this`finishItems, this`progress, this`log
      ensures Valid()
      ensures (r, TransferState()) == MoveOrCopyAll(TransferConfig(), old(TransferState()), Entries())
    {
      AllAppend(TransferConfig(), TransferState(), dirs, files);
      r := TransferGroup(dirs);
      if r.Fail? {
        return;
      }
      r := TransferGroup(files);
      if r.Fail? {
        return;
      }
      log := log + [Event(progress, totalItems, finishItems, true)];
    }
  
    // -------------------------------------------------------------------------
    // The run

    /** The first half of the constructor's pipeline: TYPES[type], then
        set_type, set_src and set_target, stopping at the first failure.
        Nothing on the filesystem changes. */
    method Configure(t: int, source: Path, dst: Path) returns (r: Outcome)
      modifies this`mode, this`src, this`target
      ensures r == Fail(TypeIndexError) <==> !(-2 <= t <= 1)
      ensures r == Fail(InvalidType) <==> t == -2 || t == -1
      ensures r == Fail(SrcInvalid) <==> (t == 0 || t == 1) && source !in paths
      ensures r == Fail(SrcNotDirectory) <==> (t == 0 || t == 1) && source in paths && source !in dirPaths
      ensures r == Fail(DstInvalid) <==> (t == 0 || t == 1) && source in paths && source in dirPaths && dst !in paths
      ensures r == Fail(DstNotDirectory) <==>
        (t == 0 || t == 1) && source in paths && source in dirPaths && dst in paths && dst !in dirPaths
      ensures r.Pass? <==> (t == 0 || t == 1) && source in paths && source in dirPaths && dst in paths && dst in dirPaths
      ensures r.Fail? ==> IsConfigError(r.error)
      ensures r.Pass? ==> mode == Types[t] && src == source && target == dst + [OutputFolderName]
    {
      var m := IndexTypes(t);
      if m.Err? {
        return Fail(m.error);
      }
      mode := m.value;
      r := SetType(t);
      if r.Fail? {
        return;
      }
      r := SetSrc(source);
      if r.Fail? {
        return;
      }
      r := SetTarget(dst);
    }

    /** The second half of the constructor's pipeline: set_all_files_dirs and
        set_target_folder_structure plan the run, then `Execute` carries it
        out, stopping at the first failure. `listedDirs` and `listedFiles`
        are the one-level listing of the source folder. */
    method Categorize(listedDirs: seq<Name>, listedFiles: seq<Name>) returns (r: Outcome)
      requires Valid()
      requires progress == 0 && finishItems == 0 && totalItems == 0 && log == []
      modifies this`paths, this`dirPaths, this`dirs, this`files, this`totalItems,
               this`targetFolderStructure, this`finishItems, this`progress, this`log
      ensures Valid()
      ensures dirs == GuardSnapshot(src, target, listedDirs) && files == listedFiles
      ensures r.Fail? ==> !IsConfigError(r.error)
      ensures r != Fail(DivisionByZero)
      ensures r.Pass? ==>
        && totalItems == CountAbsent(old(paths), Dests(target, created, src, Entries()))
        && targetFolderStructure == Buckets(DatesOf(created, src, Entries()))
        && finishItems <= totalItems
        && (NoDup(Entries()) ==> finishItems == totalItems)
        && log == RunLog(totalItems, finishItems)
        && (forall n :: n in Entries() ==> Dest(n) in paths)
        && (mode == Copy ==> old(paths) <= paths)
      ensures r.Pass? && NoDup(Entries()) ==>
        && (forall n :: n in Entries() && Dest(n) in old(paths) ==> src + [n] in paths)
        && (mode == Move ==> forall n :: n in Entries() && Dest(n) !in old(paths) ==> src + [n] !in paths)
      ensures Parent(target) in old(dirPaths) && Placeable(old(paths), old(dirPaths), created, src, target, Entries())
              ==> r.Pass?
      // An entry missing from the source stops the planning: nothing changes.
      ensures !(forall n :: n in Entries() ==> src + [n] in old(paths)) ==>
        r.Fail? && r.error.Missing? && paths == old(paths) && dirPaths == old(dirPaths) && log == []
      // Only the target, bucket folders and destinations are added, only sources removed.
      ensures paths <= old(paths) + {target} + Elems(BucketPaths(target, targetFolderStructure))
                       + Elems(Dests(target, created, src, Entries()))
      ensures old(paths) - Elems(Sources(src, Entries())) <= paths
      // The same for directories; a copy removes none.
      ensures dirPaths <= old(dirPaths) + {target} + Elems(BucketPaths(target, targetFolderStructure))
                          + Elems(Dests(target, created, src, Entries()))
      ensures old(dirPaths) - Elems(Sources(src, Entries())) <= dirPaths
      ensures mode == Copy ==> old(dirPaths) <= dirPaths
      // Whatever the outcome, a planned run has the planned bucket list.
      ensures (forall n :: n in Entries() ==> src + [n] in old(paths)) ==>
        targetFolderStructure == Buckets(DatesOf(created, src, Entries()))
    {
      r := SetAllFilesDirs(listedDirs, listedFiles);
      if r.Fail? {
        assert paths == old(paths) && dirPaths == old(dirPaths);
        return;
      }
      r := SetTargetFolderStructure();
      if r.Fail? {
        return;
      }
      assert paths == old(paths) && dirPaths == old(dirPaths);
      r := Execute();
    }

    /** create_target_folders, then move_or_copy_files, on a planned run: the
        counters at zero, the plan size reported, and a bucket for every entry. */
    method Execute() returns (r: Outcome)
      requires Valid()
      requires finishItems == 0 && progress == 0 && log == [Event(0, totalItems, 0, false)]
      requires totalItems == CountAbsent(paths, Dests(target, created, src, Entries()))
      requires forall n :: n in Entries() ==> Bucket(n) in targetFolderStructure
      modifies this`paths, this`dirPaths, this`finishItems, this`progress, this`log
      ensures Valid()
      ensures r.Fail? ==> !IsConfigError(r.error)
      ensures r != Fail(DivisionByZero)
      ensures r.Pass? ==>
        && finishItems <= totalItems
        && (NoDup(Entries()) ==> finishItems == totalItems)
        && log == RunLog(totalItems, finishItems)
        && (forall n :: n in Entries() ==> Dest(n) in paths)
        && (mode == Copy ==> old(paths) <= paths)
      // Whatever the outcome, only the target, bucket folders and destinations
      // are added, and only sources are removed.
      ensures paths <= old(paths) + {target} + Elems(BucketPaths(target, targetFolderStructure))
                       + Elems(Dests(target, created, src, Entries()))
      ensures old(paths) - Elems(Sources(src, Entries())) <= paths
      // The same for directories; a copy removes none.
      ensures dirPaths <= old(dirPaths) + {target} + Elems(BucketPaths(target, targetFolderStructure))
                          + Elems(Dests(target, created, src, Entries()))
      ensures old(dirPaths) - Elems(Sources(src, Entries())) <= dirPaths
      ensures mode == Copy ==> old(dirPaths) <= dirPaths
      ensures r.Pass? && NoDup(Entries()) ==>
        && (forall n :: n in Entries() && Dest(n) in old(paths) ==> src + [n] in paths)
        && (mode == Move ==> forall n :: n in Entries() && Dest(n) !in old(paths) ==> src + [n] !in paths)
      ensures Parent(target) in old(dirPaths) && Placeable(old(paths), old(dirPaths), created, src, target, Entries())
              ==> r.Pass?
    {
      ghost var P1, D1 := paths, dirPaths;
      r := CreateTargetFolders();
      if r.Fail? {
        return;
      }
      ghost var P2, D2 := paths, dirPaths;
      ghost var c := TransferConfig();
      assert TransferState() == StartState(c, P2, D2);
      r := MoveOrCopyFiles();
      ExecuteEffect(c, P1, D1, targetFolderStructure, Entries(), P2, D2, r, TransferState());
      ExecuteDirs(c, D1, targetFolderStructure, Entries(), P2, D2, TransferState());
    }

    /** The constructor's pipeline: `Configure`, then `Categorize`. */
    method Run(t: int, source: Path, dst: Path, listedDirs: seq<Name>, listedFiles: seq<Name>) returns (r: Outcome)
      requires Valid()
      requires progress == 0 && finishItems == 0 && totalItems == 0 && log == []
      modifies this
      ensures Valid()
      // Configuration errors, in the order they are checked; none changes the filesystem.
      ensures r == Fail(TypeIndexError) <==> !(-2 <= t <= 1)
      ensures r == Fail(InvalidType) <==> t == -2 || t == -1
      ensures r == Fail(SrcInvalid) <==> (t == 0 || t == 1) && source !in old(paths)
      ensures r == Fail(SrcNotDirectory) <==> (t == 0 || t == 1) && source in old(paths) && source !in old(dirPaths)
      ensures r == Fail(DstInvalid) <==> (t == 0 || t == 1) && source in old(dirPaths) && dst !in old(paths)
      ensures r == Fail(DstNotDirectory) <==>
        (t == 0 || t == 1) && source in old(dirPaths) && dst in old(paths) && dst !in old(dirPaths)
      ensures r.Fail? && IsConfigError(r.error) ==> paths == old(paths) && dirPaths == old(dirPaths) && log == []
      // The planned total is never divided by zero.
      ensures r != Fail(DivisionByZero)
      ensures r.Pass? ==>
        && mode == Types[t] && src == source && target == dst + [OutputFolderName]
        && dirs == GuardSnapshot(source, target, listedDirs) && files == listedFiles
        && totalItems == CountAbsent(old(paths), Dests(target, created, src, Entries()))
        && finishItems <= totalItems
        && (NoDup(Entries()) ==> finishItems == totalItems)
        && log == RunLog(totalItems, finishItems)
        && (forall n :: n in Entries() ==> Dest(n) in paths)
        && (mode == Copy ==> old(paths) <= paths)
      ensures r.Pass? && NoDup(Entries()) ==>
        && (forall n :: n in Entries() && Dest(n) in old(paths) ==> src + [n] in paths)
        && (mode == Move ==> forall n :: n in Entries() && Dest(n) !in old(paths) ==> src + [n] !in paths)
      // A feasible run succeeds.
      ensures Feasible(old(paths), old(dirPaths), created, t, source, dst, listedDirs, listedFiles) ==> r.Pass?
      // A valid configuration whose listing names an entry missing from the
      // source stops in planning: nothing changes.
      ensures (t == 0 || t == 1) && source in old(dirPaths) && dst in old(dirPaths)
              && !(forall n :: n in GuardSnapshot(source, dst + [OutputFolderName], listedDirs) + listedFiles ==>
                     source + [n] in old(paths))
              ==> r.Fail? && r.error.Missing? && paths == old(paths) && dirPaths == old(dirPaths) && log == []
      // Only the target, bucket folders and destinations are added, only sources removed.
      ensures paths <= old(paths) + {target} + Elems(BucketPaths(target, targetFolderStructure))
                       + Elems(Dests(target, created, src, Entries()))
      ensures old(paths) - Elems(Sources(src, Entries())) <= paths
      // The same for directories; a copy removes none.
      ensures dirPaths <= old(dirPaths) + {target} + Elems(BucketPaths(target, targetFolderStructure))
                          + Elems(Dests(target, created, src, Entries()))
      ensures old(dirPaths) - Elems(Sources(src, Entries())) <= dirPaths
      ensures mode == Copy ==> old(dirPaths) <= dirPaths
      // Whatever the outcome, a valid configuration fixes the fields it sets
      // and the snapshot, and a planned run has the planned bucket list.
      ensures (t == 0 || t == 1) && source in old(dirPaths) && dst in old(dirPaths) ==>
        && mode == Types[t] && src == source && target == dst + [OutputFolderName]
        && dirs == GuardSnapshot(source, target, listedDirs) && files == listedFiles
      ensures (t == 0 || t == 1) && source in old(dirPaths) && dst in old(dirPaths)
              && (forall n :: n in Entries() ==> src + [n] in old(paths)) ==>
        targetFolderStructure == Buckets(DatesOf(created, src, Entries()))
    {
      r := Configure(t, source, dst);
      if r.Fail? {
        return;
      }
      assert Parent(target) == dst;
      r := Categorize(listedDirs, listedFiles);
    }
  }
}

=== FILE: paths.dfy ===
/** Vocabulary of the abstract filesystem the categorizer works on.
    A path is the sequence of its components, so `os.path.join(p, n)` is `p + [n]`
    and the root directory is `[]`. */
module Paths {

  type Name = string
  type Path = seq<Name>

  /** A calendar-date bucket key such as "2023-04-03". */
  type DateKey = string

  /** The directory that holds `p`; the root is its own parent. */
  function Parent(p: Path): Path
  {
    if p == [] then [] else p[..|p| - 1]
  }

  /** The elements of a sequence, as a set. */
  function Elems<T>(s: seq<T>): set<T>
  {
    set x | x in s
  }

  /** No element occurs twice. */
  predicate NoDup<T(==)>(s: seq<T>)
  {
    forall i, j :: 0 <= i < j < |s| ==> s[i] != s[j]
  }

  /** Equal paths have the same last name and the same parent. */
  lemma SameChild(p: Path, a: Name, q: Path, b: Name)
    requires p + [a] == q + [b]
    ensures a == b && p == q
  {
    assert |p| == |q|;
    assert (p + [a])[|p|] == a;
    assert (p + [a])[..|p|] == p;
    assert (q + [b])[..|q|] == q;
  }

  /** A prefix one longer is the prefix with the next element appended. */
  lemma TakeOneMore<T>(s: seq<T>, i: nat)
    requires i < |s|
    ensures s[..i + 1] == s[..i] + [s[i]]
  {
  }
}

=== FILE: plan.dfy ===
/** The pure part of the categorizer: configuration checks, the self-reference
    guard on the snapshot, the ordered bucket list, the count of entries still
    to transfer, and the progress arithmetic reported to the callback. */
module Plan {
  import opened Paths

  /** Name of the folder created under the destination (OUTPUT_FOLDER_NAME). */
  const OutputFolderName: Name := "OUTPUT"

  datatype Mode = Copy | Move

  /** The modes in the order of the TYPES list: index 0 copies, index 1 moves. */
  const Types: seq<Mode> := [Copy, Move]

  /** Every way the categorizer stops. The source prints the reason and exits;
      here each is a value. */
  datatype Error =
    | TypeIndexError        // TYPES[type] raised IndexError in the constructor
    | InvalidType           // set_type: the value is neither 0 nor 1
    | SrcNotDirectory       // set_src: the path exists but is not a directory
    | SrcInvalid            // set_src: the path does not exist
    | DstNotDirectory       // set_target: the path exists but is not a directory
    | DstInvalid            // set_target: the path does not exist
    | Missing(name: Name)   // get_cdate: the entry is not in the source folder
    | FsError(path: Path)   // mkdir, copy or move failed at this path
    | DivisionByZero        // progress computed while total_items is 0

  /** The errors raised while validating the configuration, before any filesystem change. */
  predicate IsConfigError(e: Error)
  {
    e.TypeIndexError? || e.InvalidType? || e.SrcNotDirectory? || e.SrcInvalid?
    || e.DstNotDirectory? || e.DstInvalid?
  }

  datatype Result<T> = Ok(value: T) | Err(error: Error)
  datatype Outcome = Pass | Fail(error: Error)

  /** One call of the progress callback: (progress, total, finished) and the
      `compleated` keyword, which only the final call sets. */
  datatype Event = Event(progress: nat, total: nat, finished: nat, completed: bool)

  // ---------------------------------------------------------------------------
  // Configuration

  /** `TYPES[type]` as the constructor evaluates it before validation: Python
      lets negative indices count from the end of the list. */
  function IndexTypes(t: int): (r: Result<Mode>)
    ensures r.Ok? <==> -2 <= t <= 1
    ensures r.Err? ==> r.error == TypeIndexError
    ensures r.Ok? ==> (r.value == Move <==> t == 1 || t == -1)
  {
    if 0 <= t < |Types| then Ok(Types[t])
    else if -|Types| <= t < 0 then Ok(Types[|Types| + t])
    else Err(TypeIndexError)
  }

  /** set_type: only 0 (copy) and 1 (move) are accepted. */
  function ParseType(t: int): (r: Result<Mode>)
    ensures r.Ok? <==> t == 0 || t == 1
    ensures r.Err? ==> r.error == InvalidType
    ensures r.Ok? ==> (r.value == Copy <==> t == 0)
  {
    if t == 0 || t == 1 then Ok(Types[t]) else Err(InvalidType)
  }

  /** set_src: the source must exist and be a directory; the two failures differ. */
  function CheckSrc(paths: set<Path>, dirPaths: set<Path>, src: Path): (r: Result<Path>)
    ensures r.Ok? <==> src in paths && src in dirPaths
    ensures r.Ok? ==> r.value == src
    ensures r == Err(SrcInvalid) <==> src !in paths
    ensures r == Err(SrcNotDirectory) <==> src in paths && src !in dirPaths
  {
    if src in paths then
      if src in dirPaths then Ok(src) else Err(SrcNotDirectory)
    else Err(SrcInvalid)
  }

  /** set_target: the destination must exist and be a directory; the target
      is its OUTPUT child, which need not exist yet. */
  function CheckDst(paths: set<Path>, dirPaths: set<Path>, dst: Path): (r: Result<Path>)
    ensures r.Ok? <==> dst in paths && dst in dirPaths
    ensures r.Ok? ==> |r.value| == |dst| + 1 && Parent(r.value) == dst && r.value[|dst|] == OutputFolderName
    ensures r == Err(DstInvalid) <==> dst !in paths
    ensures r == Err(DstNotDirectory) <==> dst in paths && dst !in dirPaths
  {
    if dst in paths then
      if dst in dirPaths then Ok(dst + [OutputFolderName]) else Err(DstNotDirectory)
    else Err(DstInvalid)
  }

  // ---------------------------------------------------------------------------
  // Snapshot: the self-reference guard

  /** Position of the first occurrence of `x` in `s`. */
  function FirstIndex<T(==)>(s: seq<T>, x: T): (r: nat)
    requires x in s
    ensures r < |s| && s[r] == x && x !in s[..r]
  {
    if s[0] == x then 0 else 1 + FirstIndex(s[1..], x)
  }

  /** `list.remove(x)`: drops the first occurrence of `x`, if any. */
  function RemoveFirst<T(==)>(s: seq<T>, x: T): (r: seq<T>)
    ensures x !in s ==> r == s
    ensures x in s ==> r == s[..FirstIndex(s, x)] + s[FirstIndex(s, x) + 1..]
  {
    if s == [] then []
    else if s[0] == x then s[1..]
    else
      var t := RemoveFirst(s[1..], x);
      RemoveFirstCons(s, x, t);
      [s[0]] + t
  }

  /** Past a head other than `x`, removing from the tail removes from the
      whole sequence. */
  lemma RemoveFirstCons<T>(s: seq<T>, x: T, t: seq<T>)
    requires s != [] && s[0] != x
    requires x !in s[1..] ==> t == s[1..]
    requires x in s[1..] ==> t == s[1..][..FirstIndex(s[1..], x)] + s[1..][FirstIndex(s[1..], x) + 1..]
    ensures x !in s ==> [s[0]] + t == s
    ensures x in s ==> [s[0]] + t == s[..FirstIndex(s, x)] + s[FirstIndex(s, x) + 1..]
  {
    if x !in s {
      assert [s[0]] + s[1..] == s;
    } else {
      FirstIndexCons(s, x);
      var i := FirstIndex(s[1..], x);
      ConsSlices(s, i);
      assert [s[0]] + t == ([s[0]] + s[1..][..i]) + s[1..][i + 1..];
    }
  }

  /** Past a head other than `x`, the first occurrence is one further on. */
  lemma FirstIndexCons<T>(s: seq<T>, x: T)
    requires s != [] && s[0] != x && x in s
    ensures x in s[1..] && FirstIndex(s, x) == FirstIndex(s[1..], x) + 1
  {
    assert s == [s[0]] + s[1..];
  }

  /** Slicing the tail at `i` is slicing the whole sequence at `i + 1`. */
  lemma ConsSlices<T>(s: seq<T>, i: nat)
    requires i + 1 < |s|
    ensures [s[0]] + s[1..][..i] == s[..i + 1]
    ensures s[1..][i + 1..] == s[i + 2..]
  {
  }

  /** Removing drops exactly one copy of `x` when there is one, and nothing else. */
  lemma {:induction false} RemoveFirstCount<T>(s: seq<T>, x: T)
    ensures multiset(RemoveFirst(s, x)) == multiset(s) - multiset{x}
  {
    if x in s {
      var i := FirstIndex(s, x);
      var a, b := s[..i], s[i + 1..];
      assert s == a + [x] + b;
      assert multiset(s) == multiset(a) + multiset{x} + multiset(b);
      assert RemoveFirst(s, x) == a + b;
      assert multiset(a + b) == multiset(a) + multiset(b);
    } else {
      assert multiset(s)[x] == 0;
    }
  }

  /** The guard of set_all_files_dirs: the OUTPUT sub-folder of the source is
      dropped from the listed directories exactly when joining it to the root
      gives the target. */
  function GuardSnapshot(root: Path, target: Path, dirs: seq<Name>): (r: seq<Name>)
    ensures OutputFolderName in dirs && root + [OutputFolderName] == target ==>
      r == dirs[..FirstIndex(dirs, OutputFolderName)] + dirs[FirstIndex(dirs, OutputFolderName) + 1..]
    ensures !(OutputFolderName in dirs && root + [OutputFolderName] == target) ==> r == dirs
    ensures NoDup(dirs) && root + [OutputFolderName] == target ==> OutputFolderName !in r
  {
    if OutputFolderName in dirs && root + [OutputFolderName] == target then
      var i := FirstIndex(dirs, OutputFolderName);
      assert NoDup(dirs) ==> OutputFolderName !in dirs[i + 1..] by {
        if NoDup(dirs) {
          forall k | i + 1 <= k < |dirs| ensures dirs[k] != OutputFolderName {
            assert dirs[i] != dirs[k];
          }
        }
      }
      RemoveFirst(dirs, OutputFolderName)
    else dirs
  }

  // ---------------------------------------------------------------------------
  // Bucket planning

  /** The scan of set_target_folder_structure: each key of `ds` in turn is
      appended to `acc` unless already there. */
  function AddUnseen<T(==)>(acc: seq<T>, ds: seq<T>): (r: seq<T>)
    ensures |r| <= |acc| + |ds|
    // The list is only ever appended to.
    ensures |acc| <= |r| && r[..|acc|] == acc
    ensures acc == [] && ds != [] ==> r != [] && r[0] == ds[0]
    decreases |ds|
  {
    if ds == [] then acc
    else
      var b := AddUnseen(acc, ds[..|ds| - 1]);
      if ds[|ds| - 1] in b then b else b + [ds[|ds| - 1]]
  }

  /** The bucket list built from an empty list. */
  function Buckets(ds: seq<DateKey>): (r: seq<DateKey>)
    ensures |r| <= |ds|
    ensures ds != [] ==> r != [] && r[0] == ds[0]
  {
    AddUnseen([], ds)
  }

  /** Scanning `a` and then `b` is scanning `a + b`: the two loops of the
      source compose into one scan of directories followed by files. */
  lemma {:induction false} AddUnseenAppend<T>(acc: seq<T>, a: seq<T>, b: seq<T>)
    ensures AddUnseen(AddUnseen(acc, a), b) == AddUnseen(acc, a + b)
    decreases |b|
  {
    if b == [] {
      assert a + b == a;
    } else {
      var b' := b[..|b| - 1];
      AddUnseenAppend(acc, a, b');
      assert (a + b)[..|a + b| - 1] == a + b';
      assert (a + b)[|a + b| - 1] == b[|b| - 1];
    }
  }

  /** The bucket list holds every key of the input once and nothing else. */
  lemma {:induction false} BucketsElems(ds: seq<DateKey>)
    ensures NoDup(Buckets(ds))
    ensures Elems(Buckets(ds)) == Elems(ds)
    decreases |ds|
  {
    if ds != [] {
      var p := ds[..|ds| - 1];
      var x := ds[|ds| - 1];
      BucketsElems(p);
      assert ds == p + [x];
      var b := Buckets(p);
      assert Buckets(ds) == if x in b then b else b + [x];
      assert Elems(ds) == Elems(p) + {x};
      if x in b {
        assert x in Elems(b);
      } else {
        var r := b + [x];
        assert Elems(r) == Elems(b) + {x};
        forall i, j | 0 <= i < j < |r| ensures r[i] != r[j] {
          if j == |b| {
            assert r[i] == b[i];
          }
        }
      }
    }
  }

  /** Every key of `r` occurs in `ds`, and the keys of `r` appear in the order
      of their first occurrence in `ds`. */
  ghost predicate FirstSeenOrder(ds: seq<DateKey>, r: seq<DateKey>)
  {
    forall i, j :: 0 <= i < j < |r| ==>
      r[i] in ds && r[j] in ds && FirstIndex(ds, r[i]) < FirstIndex(ds, r[j])
  }

  /** Keys appear in the order of their first occurrence in the input. */
  lemma BucketsOrder(ds: seq<DateKey>)
    ensures FirstSeenOrder(ds, Buckets(ds))
  {
    forall i, j | 0 <= i < j < |Buckets(ds)| {
      BucketsOrderAt(ds, i, j);
    }
    assert forall i, j :: 0 <= i < j < |Buckets(ds)| ==>
      Buckets(ds)[i] in ds && Buckets(ds)[j] in ds && FirstIndex(ds, Buckets(ds)[i]) < FirstIndex(ds, Buckets(ds)[j]);
  }

  lemma {:induction false} BucketsOrderAt(ds: seq<DateKey>, i: nat, j: nat)
    requires i < j < |Buckets(ds)|
    ensures Buckets(ds)[i] in ds && Buckets(ds)[j] in ds
    ensures FirstIndex(ds, Buckets(ds)[i]) < FirstIndex(ds, Buckets(ds)[j])
    decreases |ds|
  {
    if ds != [] {
      var p := ds[..|ds| - 1];
      var x := ds[|ds| - 1];
      assert ds == p + [x];
      BucketsElems(p);
      var r := Buckets(ds);
      var rp := Buckets(p);
      assert r == if x in rp then rp else rp + [x];
      assert r[i] == rp[i];
      assert rp[i] in Elems(rp);
      FirstIndexPrefix(p, [x], rp[i]);
      if j < |rp| {
        assert r[j] == rp[j];
        assert rp[j] in Elems(rp);
        FirstIndexPrefix(p, [x], rp[j]);
        BucketsOrderAt(p, i, j);
      } else {
        assert x !in rp && r[j] == x;
        assert x !in p by { assert x !in Elems(rp); }
        var k := FirstIndex(ds, x);
        assert x !in ds[..|p|];
        assert k == |p|;
      }
    }
  }

  /** Extending a sequence does not move the first occurrence of a key it already holds. */
  lemma {:induction false} FirstIndexPrefix<T>(p: seq<T>, q: seq<T>, y: T)
    requires y in p
    ensures y in p + q && FirstIndex(p + q, y) == FirstIndex(p, y)
    decreases |p|
  {
    if p[0] != y {
      assert (p + q)[1..] == p[1..] + q;
      FirstIndexPrefix(p[1..], q, y);
    }
  }

  // ---------------------------------------------------------------------------
  // Destinations and the count of entries still to transfer

  /** The creation-date key of each entry, `get_cdate(name)`. */
  function DatesOf(created: Path -> DateKey, src: Path, names: seq<Name>): seq<DateKey>
  {
    seq(|names|, i requires 0 <= i < |names| => created(src + [names[i]]))
  }

  /** `target/cdate(name)/name`: where an entry of the source lands. */
  function DestOf(target: Path, created: Path -> DateKey, src: Path, n: Name): Path
  {
    target + [created(src + [n])] + [n]
  }

  /** The destination of each entry. */
  function Dests(target: Path, created: Path -> DateKey, src: Path, names: seq<Name>): seq<Path>
  {
    seq(|names|, i requires 0 <= i < |names| => DestOf(target, created, src, names[i]))
  }

  /** The destinations of a concatenation are the concatenated destinations. */
  lemma DestsAppend(target: Path, created: Path -> DateKey, src: Path, a: seq<Name>, b: seq<Name>)
    ensures Dests(target, created, src, a + b) == Dests(target, created, src, a) + Dests(target, created, src, b)
  {
  }

  /** The date keys of a concatenation are the concatenated date keys. */
  lemma DatesOfAppend(created: Path -> DateKey, src: Path, a: seq<Name>, b: seq<Name>)
    ensures DatesOf(created, src, a + b) == DatesOf(created, src, a) + DatesOf(created, src, b)
  {
  }

  /** The two scans of set_target_folder_structure, over directories `a` and
      then files `b`, build the bucket list of all entries: duplicate-free,
      holding exactly the entries' dates, in first-seen order. */
  lemma PlannedBuckets(created: Path -> DateKey, src: Path, a: seq<Name>, b: seq<Name>)
    ensures AddUnseen(AddUnseen([], DatesOf(created, src, a)), DatesOf(created, src, b))
            == Buckets(DatesOf(created, src, a + b))
    ensures var tfs := Buckets(DatesOf(created, src, a + b));
      && NoDup(tfs)
      && (forall n :: n in a + b ==> created(src + [n]) in tfs)
      && (forall k :: k in tfs ==> exists n :: n in a + b && created(src + [n]) == k)
      && FirstSeenOrder(DatesOf(created, src, a + b), tfs)
  {
    DatesOfAppend(created, src, a, b);
    AddUnseenAppend([], DatesOf(created, src, a), DatesOf(created, src, b));
    BucketsCover(created, src, a + b);
    BucketsOrder(DatesOf(created, src, a + b));
  }

  /** Every entry's date is a bucket, and every bucket is some entry's date. */
  lemma BucketsCover(created: Path -> DateKey, src: Path, names: seq<Name>)
    ensures var tfs := Buckets(DatesOf(created, src, names));
      && NoDup(tfs)
      && (forall n :: n in names ==> created(src + [n]) in tfs)
      && (forall k :: k in tfs ==> exists n :: n in names && created(src + [n]) == k)
  {
    var ds := DatesOf(created, src, names);
    BucketsElems(ds);
    var tfs := Buckets(ds);
    forall n | n in names
      ensures created(src + [n]) in tfs
    {
      var j :| 0 <= j < |names| && names[j] == n;
      assert ds[j] == created(src + [n]);
      assert created(src + [n]) in Elems(ds);
    }
    forall k | k in tfs
      ensures exists n :: n in names && created(src + [n]) == k
    {
      assert k in Elems(ds);
      var j :| 0 <= j < |ds| && ds[j] == k;
      assert names[j] in names && created(src + [names[j]]) == k;
    }
  }

  /** `root/name` for each entry. */
  function Sources(src: Path, names: seq<Name>): seq<Path>
  {
    seq(|names|, i requires 0 <= i < |names| => src + [names[i]])
  }

  /** `target/k` for each bucket key. */
  function BucketPaths(target: Path, keys: seq<DateKey>): seq<Path>
  {
    seq(|keys|, i requires 0 <= i < |keys| => target + [keys[i]])
  }

  /** How many of the paths do not exist (set_total_items counts these). */
  function CountAbsent(paths: set<Path>, ps: seq<Path>): (r: nat)
    ensures r <= |ps|
    ensures r == 0 <==> forall i :: 0 <= i < |ps| ==> ps[i] in paths
    decreases |ps|
  {
    if ps == [] then 0
    else
      var last := ps[|ps| - 1];
      var c := CountAbsent(paths, ps[..|ps| - 1]);
      assert forall i :: 0 <= i < |ps| - 1 ==> ps[..|ps| - 1][i] == ps[i];
      c + (if last in paths then 0 else 1)
  }

  /** Counting one more element of a prefix adds one exactly when it is missing. */
  lemma CountAbsentPrefix(paths: set<Path>, ps: seq<Path>, i: nat)
    requires i < |ps|
    ensures CountAbsent(paths, ps[..i + 1]) == CountAbsent(paths, ps[..i]) + (if ps[i] in paths then 0 else 1)
  {
    assert ps[..i + 1][..i] == ps[..i];
  }

  /** Counting the destinations of one more entry. */
  lemma CountDestsStep(paths: set<Path>, target: Path, created: Path -> DateKey, src: Path,
                       names: seq<Name>, i: nat)
    requires i < |names|
    ensures CountAbsent(paths, Dests(target, created, src, names)[..i + 1])
            == CountAbsent(paths, Dests(target, created, src, names)[..i])
               + (if DestOf(target, created, src, names[i]) in paths then 0 else 1)
  {
    CountAbsentPrefix(paths, Dests(target, created, src, names), i);
  }

  /** Counting over a concatenation adds the counts. */
  lemma {:induction false} CountAbsentAppend(paths: set<Path>, a: seq<Path>, b: seq<Path>)
    ensures CountAbsent(paths, a + b) == CountAbsent(paths, a) + CountAbsent(paths, b)
    decreases |b|
  {
    if b == [] {
      assert a + b == a;
    } else {
      var b' := b[..|b| - 1];
      CountAbsentAppend(paths, a, b');
      assert (a + b)[..|a + b| - 1] == a + b';
      assert (a + b)[|a + b| - 1] == b[|b| - 1];
    }
  }

  /** If every listed path present in `before` is present in `after`, fewer
      of them are absent afterwards. */
  lemma {:induction false} CountAbsentMono(before: set<Path>, after: set<Path>, ps: seq<Path>)
    requires forall i :: 0 <= i < |ps| && ps[i] in before ==> ps[i] in after
    ensures CountAbsent(after, ps) <= CountAbsent(before, ps)
    decreases |ps|
  {
    if ps != [] {
      var p := ps[..|ps| - 1];
      assert forall i :: 0 <= i < |p| ==> p[i] == ps[i];
      CountAbsentMono(before, after, p);
    }
  }

  /** The count only depends on which of the listed paths exist. */
  lemma {:induction false} CountAbsentSame(before: set<Path>, after: set<Path>, ps: seq<Path>)
    requires forall i :: 0 <= i < |ps| ==> (ps[i] in before <==> ps[i] in after)
    ensures CountAbsent(after, ps) == CountAbsent(before, ps)
    decreases |ps|
  {
    if ps != [] {
      var p := ps[..|ps| - 1];
      assert forall i :: 0 <= i < |p| ==> p[i] == ps[i];
      CountAbsentSame(before, after, p);
    }
  }

  // ---------------------------------------------------------------------------
  // Progress

  /** `int(100 * finished / total)`; 0 while nothing can be divided. */
  function Percent(finished: nat, total: nat): (r: nat)
    ensures finished <= total ==> r <= 100
    ensures 0 < total && finished == total ==> r == 100
    ensures finished == 0 ==> r == 0
  {
    if total == 0 then 0
    else
      PercentBounds(finished, total);
      100 * finished / total
  }

  lemma PercentBounds(finished: nat, total: nat)
    requires 0 < total
    ensures finished <= total ==> 100 * finished / total <= 100
    ensures finished == total ==> 100 * finished / total == 100
  {
    MulDivCancel(100, total);
    if finished <= total {
      MulMonotone(100, finished, total);
      DivMonotone(100 * finished, 100 * total, total);
    }
  }

  lemma {:induction false} MulDivCancel(k: nat, d: nat)
    requires 0 < d
    ensures k * d / d == k
  {
    var q, r := k * d / d, k * d % d;
    assert k * d == d * q + r && 0 <= r < d;
    assert d * (k - q) == r;
    MulBounds(d, k - q);
  }

  /** More finished items never report less progress. */
  lemma PercentMonotone(f1: nat, f2: nat, total: nat)
    requires f1 <= f2
    ensures Percent(f1, total) <= Percent(f2, total)
  {
    if total > 0 {
      DivMonotone(100 * f1, 100 * f2, total);
    }
  }

  lemma {:induction false} DivMonotone(a: nat, b: nat, d: nat)
    requires a <= b && 0 < d
    ensures a / d <= b / d
  {
    var qa, qb := a / d, b / d;
    assert a == d * qa + a % d;
    assert b == d * qb + b % d;
    assert d * (qa - qb) == (a - b) + b % d - a % d;
    MulBounds(d, qa - qb);
  }

  /** A multiple of `d` by a positive factor is at least `d`, by a negative
      one at most `-d`. */
  lemma MulBounds(d: nat, m: int)
    ensures m >= 1 ==> d * m >= d
    ensures m <= -1 ==> d * m + d <= 0
  {
  }

  lemma MulMonotone(d: nat, p: nat, q: nat)
    requires p <= q
    ensures d * p <= d * q
  {
  }

  /** The callbacks fired by the transfer loop while the finished count goes
      from `lo` to `hi`, one per transferred entry. */
  function ProgressEvents(total: nat, lo: nat, hi: nat): (r: seq<Event>)
    requires lo <= hi
    ensures |r| == hi - lo
    ensures forall k :: 0 <= k < |r| ==> r[k] == ProgressEvent(total, lo + k + 1)
    decreases hi - lo
  {
    if hi == lo then []
    else ProgressEvents(total, lo, hi - 1) + [ProgressEvent(total, hi)]
  }

  /** The callback made after the `finished`-th transfer. */
  function ProgressEvent(total: nat, finished: nat): Event
  {
    Event(Percent(finished, total), total, finished, false)
  }

  /** The whole callback log of a successful run: the initial report, one
      event per transfer, and the final completed event. */
  function RunLog(total: nat, finished: nat): (r: seq<Event>)
    ensures |r| == finished + 2
    ensures r[0] == Event(0, total, 0, false)
    ensures r[|r| - 1].completed && r[|r| - 1].finished == finished
  {
    [Event(0, total, 0, false)] + ProgressEvents(total, 0, finished)
    + [Event(Percent(finished, total), total, finished, true)]
  }

  /** The skeleton can be built: the target can be created in the destination,
      or it is a directory already, or every bucket exists already. */
  predicate SkeletonBuildable(paths: set<Path>, dirPaths: set<Path>, target: Path, keys: seq<DateKey>)
  {
    && (target !in paths ==> Parent(target) in dirPaths)
    && (target in paths && target !in dirPaths ==> forall k :: k in keys ==> target + [k] in paths)
  }

  /** A well-formed run: a valid mode, existing source and destination
      directories, and a snapshot whose entries can all be placed. */
  ghost predicate Feasible(paths: set<Path>, dirPaths: set<Path>, created: Path -> DateKey, t: int,
                           src: Path, dst: Path, listedDirs: seq<Name>, listedFiles: seq<Name>)
  {
    var target := dst + [OutputFolderName];
    && (t == 0 || t == 1)
    && dirPaths <= paths && src in dirPaths && dst in dirPaths
    && Placeable(paths, dirPaths, created, src, target, GuardSnapshot(src, target, listedDirs) + listedFiles)
  }

  /** Entries that can all be placed: distinct names that all exist, none of
      them the target or a folder holding it, a source that is not the target
      itself, and no regular file where the target or a bucket folder must be. */
  ghost predicate Placeable(paths: set<Path>, dirPaths: set<Path>, created: Path -> DateKey,
                            src: Path, target: Path, entries: seq<Name>)
  {
    && NoDup(entries) && src != target
    && (forall n :: n in entries ==> src + [n] in paths && !(src + [n] <= target))
    && (target in paths ==> target in dirPaths)
    && (forall n :: n in entries && target + [created(src + [n])] in paths ==>
          target + [created(src + [n])] in dirPaths)
  }

  /** The `i`-th event of a run's log: the initial report, a progress report
      per transfer, then the completed event. */
  lemma RunLogAt(total: nat, finished: nat, i: nat)
    requires i < finished + 2
    ensures var f := if i == finished + 1 then finished else i;
      RunLog(total, finished)[i] == Event(Percent(f, total), total, f, i == finished + 1)
  {
    var pe := ProgressEvents(total, 0, finished);
    var log := RunLog(total, finished);
    if i == 0 {
      assert log[0] == Event(0, total, 0, false);
      assert total > 0 ==> 100 * 0 / total == 0;
    } else if i <= finished {
      assert log[i] == pe[i - 1];
    } else {
      assert log[i] == Event(Percent(finished, total), total, finished, true);
    }
  }

  /** Exactly one completed event, the last; progress stays in 0..100 and
      never decreases; the finished counts run 0, 1, ..., finished. */
  lemma RunLogShape(total: nat, finished: nat)
    requires finished <= total
    ensures var log := RunLog(total, finished);
      |log| == finished + 2
      && log[|log| - 1].completed
      && (forall i :: 0 <= i < |log| - 1 ==> !log[i].completed && log[i].finished == i)
      && (forall i :: 0 <= i < |log| ==> log[i].progress <= 100 && log[i].total == total)
      && (forall i, j :: 0 <= i <= j < |log| ==> log[i].progress <= log[j].progress)
      && (finished == 0 ==> log[|log| - 1].progress == 0)
  {
    var log := RunLog(total, finished);
    RunLogAt(total, finished, 0);
    RunLogAt(total, finished, |log| - 1);
    forall i | 0 <= i < |log|
      ensures log[i].total == total && log[i].progress <= 100
      ensures log[i].completed <==> i == |log| - 1
      ensures i < |log| - 1 ==> log[i].finished == i
    {
      RunLogAt(total, finished, i);
    }
    forall i, j | 0 <= i <= j < |log|
      ensures log[i].progress <= log[j].progress
    {
      RunLogAt(total, finished, i);
      RunLogAt(total, finished, j);
      var fi := if i == |log| - 1 then finished else i;
      var fj := if j == |log| - 1 then finished else j;
      PercentMonotone(fi, fj, total);
    }
  }
}

=== FILE: scenarios.dfy ===
/** Concrete runs of the transfer stage: folder `/s` holds the file `a.txt`
    (created 2023-04-03) and the folder `b` (created 2023-04-04), the
    destination `/d` is empty but for the skeleton `/d/OUTPUT/2023-04-03`,
    `/d/OUTPUT/2023-04-04`, and two entries are planned. */
module Scenarios {
  import opened Paths
  import opened Plan
  import opened Transfer

  function Created(p: Path): DateKey
  {
    if p == ["s", "a.txt"] then "2023-04-03" else "2023-04-04"
  }

  function ScenarioConfig(mode: Mode): Config
  {
    Config(mode, ["d", OutputFolderName], Created, ["s"], 2)
  }

  function Skeleton(): set<Path>
  {
    {["d", OutputFolderName], ["d", OutputFolderName, "2023-04-03"], ["d", OutputFolderName, "2023-04-04"]}
  }

  function Start(): State
  {
    State({["s"], ["s", "a.txt"], ["s", "b"], ["d"]} + Skeleton(),
          {["s"], ["s", "b"], ["d"]} + Skeleton(), 0, 0, [Event(0, 2, 0, false)])
  }

  /** The creation date and destination of each entry. */
  lemma Placement(mode: Mode)
    ensures ScenarioConfig(mode).created(["s"] + ["b"]) == "2023-04-04"
    ensures ScenarioConfig(mode).created(["s"] + ["a.txt"]) == "2023-04-03"
    ensures Dst(ScenarioConfig(mode), "b") == ["d", OutputFolderName, "2023-04-04", "b"]
    ensures Dst(ScenarioConfig(mode), "a.txt") == ["d", OutputFolderName, "2023-04-03", "a.txt"]
  {
    assert ["s"] + ["b"] == ["s", "b"];
    assert ["s"] + ["a.txt"] == ["s", "a.txt"];
    assert ["s", "b"][1] != ["s", "a.txt"][1];
  }

  lemma StartReady(mode: Mode)
    ensures Ready(ScenarioConfig(mode), ["b", "a.txt"], Start().paths, Start().dirPaths)
  {
    var c := ScenarioConfig(mode);
    Placement(mode);
    assert ["s"] + ["b"] == ["s", "b"] && ["s"] + ["a.txt"] == ["s", "a.txt"];
    assert BucketOf(c, "a.txt") == ["d", OutputFolderName, "2023-04-03"];
    assert BucketOf(c, "b") == ["d", OutputFolderName, "2023-04-04"];
    assert ["b", "a.txt"][0] != ["b", "a.txt"][1];
    assert c.src != c.target;
  }

  /** As written, the move of `b` is followed by a second creation-date lookup
      on the moved source, which ends the run: `a.txt` is never moved and
      nothing is counted or reported. */
  lemma MoveScenarioAsWritten()
    ensures var (o, st) := TransferAllAsWritten(ScenarioConfig(Move), Start(), ["b", "a.txt"]);
      && o == Fail(Missing("b"))
      && ["d", OutputFolderName, "2023-04-04", "b"] in st.paths && ["s", "b"] !in st.paths
      && ["s", "a.txt"] in st.paths && ["d", OutputFolderName, "2023-04-03", "a.txt"] !in st.paths
      && st.finished == 0 && st.log == [Event(0, 2, 0, false)]
  {
    var c := ScenarioConfig(Move);
    StartReady(Move);
    Placement(Move);
    AsWrittenMoveStopsAtFirst(c, Start(), ["b", "a.txt"]);
  }

  /** Corrected, both entries are moved into their buckets and counted. */
  lemma MoveScenarioCorrected()
    ensures var (o, st) := TransferAll(ScenarioConfig(Move), Start(), ["b", "a.txt"]);
      && o == Pass
      && ["d", OutputFolderName, "2023-04-04", "b"] in st.paths && ["s", "b"] !in st.paths
      && ["d", OutputFolderName, "2023-04-03", "a.txt"] in st.paths && ["s", "a.txt"] !in st.paths
      && st.finished == 2
  {
    var c := ScenarioConfig(Move);
    var names := ["b", "a.txt"];
    StartReady(Move);
    Placement(Move);
    assert DestsOf(c, names) == [Dst(c, "b"), Dst(c, "a.txt")];
    assert CountAbsent(Start().paths, DestsOf(c, names)) == 2;
    CorrectedMoveMovesAll(c, Start(), names);
  }

  /** Copied, both entries land in their buckets, stay in the source, are
      counted, and the completed callback reports 2 of 2 at 100 percent. */
  lemma CopyScenario()
    ensures var (o, st) := MoveOrCopyAll(ScenarioConfig(Copy), Start(), ["b", "a.txt"]);
      && o == Pass
      && ["d", OutputFolderName, "2023-04-04", "b"] in st.paths && ["s", "b"] in st.paths
      && ["d", OutputFolderName, "2023-04-03", "a.txt"] in st.paths && ["s", "a.txt"] in st.paths
      && st.finished == 2
      && st.log[|st.log| - 1] == Event(100, 2, 2, true)
  {
    var c := ScenarioConfig(Copy);
    var names := ["b", "a.txt"];
    StartReady(Copy);
    Placement(Copy);
    assert DestsOf(c, names) == [Dst(c, "b"), Dst(c, "a.txt")];
    assert CountAbsent(Start().paths, DestsOf(c, names)) == 2;
    AllReady(c, Start(), names);
    AllExact(c, Start(), names);
    AllPlaced(c, Start(), names);
    AllFramePaths(c, Start(), names);
    AllLog(c, Start(), names);
  }
}

=== FILE: transfer.dfy ===
/** The transfer stage of the categorizer (move_or_copy_files) as a function
    on values: one step per entry, folded over the entries in order, and
    what the fold guarantees about the filesystem, the counter and the
    progress callbacks. */
module Transfer {
  import opened Paths
  import opened Plan

  /** The paths after `s` is copied or moved to the fresh path `t`. */
  function AfterTransfer(mode: Mode, paths: set<Path>, s: Path, t: Path): (r: set<Path>)
    ensures t in r
    ensures r - {t} <= paths && paths - {s} <= r
    ensures mode == Copy ==> paths <= r
    ensures mode == Move && s != t ==> s !in r
  {
    (if mode == Move then paths - {s} else paths) + {t}
  }

  /** The directories after the same transfer: `t` is a directory exactly
      when `s` was one. */
  function AfterTransferDirs(mode: Mode, dirPaths: set<Path>, s: Path, t: Path): (r: set<Path>)
    ensures s in dirPaths ==> t in r
    ensures s !in dirPaths && t !in dirPaths ==> t !in r
    ensures r - {t} <= dirPaths && dirPaths - {s} <= r
    ensures mode == Copy ==> dirPaths <= r
  {
    (if mode == Move then dirPaths - {s} else dirPaths) + (if s in dirPaths then {t} else {})
  }

  /** A transfer creates its destination, keeps the source exactly when it
      copies, keeps every other path, and keeps directories inside paths. */
  lemma TransferEffect(mode: Mode, paths: set<Path>, dirPaths: set<Path>, s: Path, t: Path)
    requires dirPaths <= paths && s in paths && t !in paths
    ensures t in AfterTransfer(mode, paths, s, t)
    ensures s in AfterTransfer(mode, paths, s, t) <==> mode == Copy
    ensures forall q :: q != s && q != t ==> (q in AfterTransfer(mode, paths, s, t) <==> q in paths)
    ensures t in AfterTransferDirs(mode, dirPaths, s, t) <==> s in dirPaths
    ensures AfterTransferDirs(mode, dirPaths, s, t) <= AfterTransfer(mode, paths, s, t)
  {
  }

  /** A destination equals a source path only for the same entry, when the
      source folder is that entry's bucket. */
  lemma DestSourceClash(target: Path, created: Path -> DateKey, src: Path, m: Name, n: Name)
    ensures DestOf(target, created, src, m) == src + [n] ==>
      m == n && DestOf(target, created, src, n) == src + [n]
  {
    if DestOf(target, created, src, m) == src + [n] {
      SameChild(target + [created(src + [m])], m, src, n);
    }
  }

  /** Different entries have different source paths. */
  lemma SourceInjective(src: Path, m: Name, n: Name)
    ensures src + [m] == src + [n] ==> m == n
  {
    if src + [m] == src + [n] {
      SameChild(src, m, src, n);
    }
  }

  /** Different entries have different destinations. */
  lemma DestInjective(target: Path, created: Path -> DateKey, src: Path, m: Name, n: Name)
    ensures DestOf(target, created, src, m) == DestOf(target, created, src, n) ==> m == n
  {
    if DestOf(target, created, src, m) == DestOf(target, created, src, n) {
      SameChild(target + [created(src + [m])], m, target + [created(src + [n])], n);
    }
  }

  /** What the transfer stage reads of the categorizer: the mode, the target,
      the creation dates, the source folder and the planned total. */
  datatype Config = Config(mode: Mode, target: Path, created: Path -> DateKey, src: Path, total: nat)

  /** What the transfer stage changes: the filesystem, the finished counter,
      the progress value and the callback log. */
  datatype State = State(paths: set<Path>, dirPaths: set<Path>, finished: nat, progress: nat, log: seq<Event>)

  /** Where entry `n` lands. */
  function Dst(c: Config, n: Name): Path
  {
    DestOf(c.target, c.created, c.src, n)
  }

  /** The bucket folder of entry `n`. */
  function BucketOf(c: Config, n: Name): Path
  {
    c.target + [c.created(c.src + [n])]
  }

  function DestsOf(c: Config, names: seq<Name>): seq<Path>
  {
    Dests(c.target, c.created, c.src, names)
  }

  function SourcesOf(c: Config, names: seq<Name>): seq<Path>
  {
    Sources(c.src, names)
  }

  /** `st` after entry `n` is copied or moved and counted. */
  function Transferred(c: Config, st: State, n: Name): State
  {
    st.(paths := AfterTransfer(c.mode, st.paths, c.src + [n], Dst(c, n)),
        dirPaths := AfterTransferDirs(c.mode, st.dirPaths, c.src + [n], Dst(c, n)),
        finished := st.finished + 1)
  }

  /** One iteration of move_or_copy_files, the creation date read once:
      the entry must be in the source folder (get_cdate), is skipped when its
      destination exists, needs its bucket to be a directory, and after the
      copy or move the counter, the progress and the callback follow; the
      progress divides by the planned total. */
  function TransferOne(c: Config, st: State, n: Name): (r: (Result<bool>, State))
    ensures r.0 == Ok(false) <==> c.src + [n] in st.paths && Dst(c, n) in st.paths
    ensures r.0 != Ok(true) && r.0 != Err(DivisionByZero) ==> r.1 == st
    ensures r.0 == Ok(true) ==>
      Dst(c, n) in r.1.paths && r.1.finished == st.finished + 1 && |r.1.log| == |st.log| + 1
  {
    if c.src + [n] !in st.paths then (Err(Missing(n)), st)
    else if Dst(c, n) in st.paths then (Ok(false), st)
    else if BucketOf(c, n) !in st.dirPaths then (Err(FsError(BucketOf(c, n))), st)
    else
      var st1 := Transferred(c, st, n);
      if c.total == 0 then (Err(DivisionByZero), st1)
      else (Ok(true), st1.(progress := Percent(st1.finished, c.total),
                           log := st1.log + [ProgressEvent(c.total, st1.finished)]))
  }

  /** The same iteration as written in the source: after the copy or move,
      the creation date is read again from the source folder for the printed
      destination. */
  function TransferOneAsWritten(c: Config, st: State, n: Name): (r: (Result<bool>, State))
    ensures c.mode == Copy ==> r == TransferOne(c, st, n)
    // Under move, no step ever reports a transfer: nothing is counted or reported.
    ensures c.mode == Move ==> r.0 != Ok(true) && r.1.finished == st.finished && r.1.log == st.log
  {
    if c.src + [n] !in st.paths then (Err(Missing(n)), st)
    else if Dst(c, n) in st.paths then (Ok(false), st)
    else if BucketOf(c, n) !in st.dirPaths then (Err(FsError(BucketOf(c, n))), st)
    else
      var st1 := Transferred(c, st, n);
      if c.src + [n] !in st1.paths then (Err(Missing(n)), st1.(finished := st.finished))
      else if c.total == 0 then (Err(DivisionByZero), st1)
      else (Ok(true), st1.(progress := Percent(st1.finished, c.total),
                           log := st1.log + [ProgressEvent(c.total, st1.finished)]))
  }

  /** The loop over `names`, stopping at the first failure. */
  function TransferAll(c: Config, st: State, names: seq<Name>): (r: (Outcome, State))
    // A failure is a zero total or names an entry: missing, or with no bucket folder.
    ensures r.0.Fail? ==>
      r.0.error == DivisionByZero
      || exists n :: n in names && (r.0.error == Missing(n) || r.0.error == FsError(BucketOf(c, n)))
    decreases |names|
  {
    if names == [] then (Pass, st)
    else
      var step := TransferOne(c, st, names[0]);
      if step.0.Err? then (Fail(step.0.error), step.1)
      else TransferAll(c, step.1, names[1..])
  }

  /** The same loop with the step as written in the source. */
  function TransferAllAsWritten(c: Config, st: State, names: seq<Name>): (r: (Outcome, State))
    ensures c.mode == Copy ==> r == TransferAll(c, st, names)
    ensures c.mode == Move ==> r.1.finished == st.finished && r.1.log == st.log
    decreases |names|
  {
    if names == [] then (Pass, st)
    else
      var step := TransferOneAsWritten(c, st, names[0]);
      if step.0.Err? then (Fail(step.0.error), step.1)
      else TransferAllAsWritten(c, step.1, names[1..])
  }

  /** move_or_copy_files: the loop over every entry then, when it passes, the
      final callback marking the run completed. */
  function MoveOrCopyAll(c: Config, st: State, names: seq<Name>): (r: (Outcome, State))
    ensures r.0.Fail? ==> r == TransferAll(c, st, names)
    ensures r.0.Pass? ==> forall n :: n in names ==> Dst(c, n) in r.1.paths
    ensures r.0.Pass? ==>
      && st.finished <= r.1.finished
      && r.1.log == st.log + ProgressEvents(c.total, st.finished, r.1.finished)
                    + [Event(r.1.progress, c.total, r.1.finished, true)]
  {
    AllLog(c, st, names);
    AllPlaced(c, st, names);
    var res := TransferAll(c, st, names);
    if res.0.Fail? then res
    else (Pass, res.1.(log := res.1.log + [Event(res.1.progress, c.total, res.1.finished, true)]))
  }

  // ---------------------------------------------------------------------------
  // One step

  /** A step either changes nothing (the entry is missing, its destination
      exists, or its bucket is not a directory) or creates the destination,
      removes the source exactly under move, and counts one more entry; the
      progress and a callback follow unless the total is zero. */
  lemma TransferOneEffect(c: Config, st: State, n: Name)
    requires st.dirPaths <= st.paths
    ensures var (r, st') := TransferOne(c, st, n);
      && st'.dirPaths <= st'.paths
      && (r == Err(Missing(n)) <==> c.src + [n] !in st.paths)
      && (r == Ok(false) <==> c.src + [n] in st.paths && Dst(c, n) in st.paths)
      && (r == Err(FsError(BucketOf(c, n))) <==>
            c.src + [n] in st.paths && Dst(c, n) !in st.paths && BucketOf(c, n) !in st.dirPaths)
      && (r == Ok(true) || r == Err(DivisionByZero) <==>
            c.src + [n] in st.paths && Dst(c, n) !in st.paths && BucketOf(c, n) in st.dirPaths)
      && (r == Err(DivisionByZero) <==> (r == Ok(true) || r == Err(DivisionByZero)) && c.total == 0)
      && (r != Ok(true) && r != Err(DivisionByZero) ==> st' == st)
      && (r == Ok(true) || r == Err(DivisionByZero) ==>
            && Dst(c, n) in st'.paths
            && (c.src + [n] in st'.paths <==> c.mode == Copy)
            && (forall q :: q != c.src + [n] && q != Dst(c, n) ==> (q in st'.paths <==> q in st.paths))
            && (Dst(c, n) in st'.dirPaths <==> c.src + [n] in st.dirPaths)
            && st'.finished == st.finished + 1)
      && (r == Ok(true) ==>
            st'.progress == Percent(st'.finished, c.total)
            && st'.log == st.log + [Event(st'.progress, c.total, st'.finished, false)])
      && (r == Err(DivisionByZero) ==> st'.progress == st.progress && st'.log == st.log)
  {
    var s, t := c.src + [n], Dst(c, n);
    if s in st.paths && t !in st.paths {
      TransferEffect(c.mode, st.paths, st.dirPaths, s, t);
    }
  }

  /** A step never removes a destination that exists: a destination equals a
      source path only for the entry itself, whose destination is then the
      existing source and the entry is skipped. */
  lemma StepKeepsDests(c: Config, st: State, n: Name)
    ensures forall m :: Dst(c, m) in st.paths ==> Dst(c, m) in TransferOne(c, st, n).1.paths
  {
    var s, t := c.src + [n], Dst(c, n);
    forall m | Dst(c, m) in st.paths
      ensures Dst(c, m) in TransferOne(c, st, n).1.paths
    {
      DestSourceClash(c.target, c.created, c.src, m, n);
      if s in st.paths && t !in st.paths && BucketOf(c, n) in st.dirPaths {
        assert Dst(c, m) != s;
        assert TransferOne(c, st, n).1.paths == AfterTransfer(c.mode, st.paths, s, t);
      }
    }
  }

  lemma DestsCons(c: Config, names: seq<Name>)
    requires names != []
    ensures DestsOf(c, names) == [Dst(c, names[0])] + DestsOf(c, names[1..])
    ensures SourcesOf(c, names) == [c.src + [names[0]]] + SourcesOf(c, names[1..])
    ensures Elems(DestsOf(c, names)) == {Dst(c, names[0])} + Elems(DestsOf(c, names[1..]))
    ensures Elems(SourcesOf(c, names)) == {c.src + [names[0]]} + Elems(SourcesOf(c, names[1..]))
  {
    assert DestsOf(c, names) == [Dst(c, names[0])] + DestsOf(c, names[1..]);
    assert SourcesOf(c, names) == [c.src + [names[0]]] + SourcesOf(c, names[1..]);
  }

  /** Counting the missing paths of `[x] + rest`. */
  lemma CountAbsentCons(paths: set<Path>, x: Path, rest: seq<Path>)
    ensures CountAbsent(paths, [x] + rest) == (if x in paths then 0 else 1) + CountAbsent(paths, rest)
  {
    CountAbsentAppend(paths, [x], rest);
    assert [x][..0] == [];
  }

  // ---------------------------------------------------------------------------
  // The loop

  /** The loop never removes an existing destination. */
  lemma {:induction false} AllKeepsDests(c: Config, st: State, names: seq<Name>)
    ensures forall m :: Dst(c, m) in st.paths ==> Dst(c, m) in TransferAll(c, st, names).1.paths
    decreases |names|
  {
    if names != [] {
      StepKeepsDests(c, st, names[0]);
      var step := TransferOne(c, st, names[0]);
      if step.0.Ok? {
        AllKeepsDests(c, step.1, names[1..]);
      }
    }
  }

  /** Directories stay inside paths; the loop adds no directory but a
      destination, removes none but a source, and a copy removes none. */
  lemma {:induction false} AllFrameDirs(c: Config, st: State, names: seq<Name>)
    requires st.dirPaths <= st.paths
    ensures var st' := TransferAll(c, st, names).1;
      && st'.dirPaths <= st'.paths
      && st'.dirPaths <= st.dirPaths + Elems(DestsOf(c, names))
      && st.dirPaths - Elems(SourcesOf(c, names)) <= st'.dirPaths
      && (c.mode == Copy ==> st.dirPaths <= st'.dirPaths)
    decreases |names|
  {
    if names != [] {
      DestsCons(c, names);
      var step := TransferOne(c, st, names[0]);
      if step.0.Ok? {
        AllFrameDirs(c, step.1, names[1..]);
      }
    }
  }

  /** The counter only grows, by at most the number of destinations missing
      at the start; a division by zero needs a zero total and a missing
      destination. */
  lemma {:induction false} AllCount(c: Config, st: State, names: seq<Name>)
    ensures var (o, st') := TransferAll(c, st, names);
      && st.finished <= st'.finished <= st.finished + CountAbsent(st.paths, DestsOf(c, names))
      && (o == Fail(DivisionByZero) ==> c.total == 0 && CountAbsent(st.paths, DestsOf(c, names)) > 0)
    decreases |names|
  {
    if names != [] {
      var n := names[0];
      DestsCons(c, names);
      CountAbsentCons(st.paths, Dst(c, n), DestsOf(c, names[1..]));
      var step := TransferOne(c, st, n);
      if step.0.Ok? {
        AllCount(c, step.1, names[1..]);
        StepKeepsDests(c, st, n);
        var rest := DestsOf(c, names[1..]);
        forall k | 0 <= k < |rest| && rest[k] in st.paths
          ensures rest[k] in step.1.paths
        {
          assert rest[k] == Dst(c, names[1..][k]);
        }
        CountAbsentMono(st.paths, step.1.paths, rest);
      }
    }
  }

  /** Successive progress callbacks: the first one, then the rest. */
  lemma ProgressEventsCons(total: nat, lo: nat, hi: nat)
    requires lo < hi
    ensures ProgressEvents(total, lo, hi) == [ProgressEvent(total, lo + 1)] + ProgressEvents(total, lo + 1, hi)
  {
  }

  /** A successful loop makes one callback per transferred entry, in order,
      and leaves the progress of the last one. */
  lemma {:induction false} AllLog(c: Config, st: State, names: seq<Name>)
    ensures var (o, st') := TransferAll(c, st, names);
      o.Pass? ==>
        && st.finished <= st'.finished
        && st'.log == st.log + ProgressEvents(c.total, st.finished, st'.finished)
        && (st'.finished == st.finished ==> st'.progress == st.progress)
        && (st'.finished > st.finished ==> st'.progress == Percent(st'.finished, c.total))
    decreases |names|
  {
    if names != [] {
      var step := TransferOne(c, st, names[0]);
      if step.0.Ok? {
        AllLog(c, step.1, names[1..]);
        var st' := TransferAll(c, step.1, names[1..]).1;
        if step.0 == Ok(true) && TransferAll(c, st, names).0.Pass? {
          ProgressEventsCons(c.total, st.finished, st'.finished);
        }
      }
    }
  }

  /** A successful loop leaves every entry at its destination. */
  lemma {:induction false} AllPlaced(c: Config, st: State, names: seq<Name>)
    ensures var (o, st') := TransferAll(c, st, names);
      o.Pass? ==> forall n :: n in names ==> Dst(c, n) in st'.paths
    decreases |names|
  {
    if names != [] {
      var step := TransferOne(c, st, names[0]);
      if step.0.Ok? {
        AllPlaced(c, step.1, names[1..]);
        AllKeepsDests(c, step.1, names[1..]);
        forall n | n in names
          ensures n == names[0] || n in names[1..]
        {
        }
      }
    }
  }

  /** When every entry is in the source folder and already at its destination,
      the loop skips them all: nothing changes and nothing was counted. */
  lemma {:induction false} AllSkipped(c: Config, st: State, names: seq<Name>)
    requires forall n :: n in names ==> c.src + [n] in st.paths && Dst(c, n) in st.paths
    ensures TransferAll(c, st, names) == (Pass, st)
    ensures CountAbsent(st.paths, DestsOf(c, names)) == 0
    decreases |names|
  {
    if names != [] {
      assert names[0] in names;
      assert forall n :: n in names[1..] ==> n in names;
      DestsCons(c, names);
      CountAbsentCons(st.paths, Dst(c, names[0]), DestsOf(c, names[1..]));
      AllSkipped(c, st, names[1..]);
    }
  }

  /** Running the copy loop again on what a successful copy run left skips
      every entry: the rerun transfers nothing and counts nothing. */
  lemma CopyRerunSkipsAll(c: Config, st: State, names: seq<Name>)
    requires c.mode == Copy && TransferAll(c, st, names).0.Pass?
    requires forall n :: n in names ==> c.src + [n] in st.paths
    ensures var st' := TransferAll(c, st, names).1;
      TransferAll(c, st', names) == (Pass, st') && CountAbsent(st'.paths, DestsOf(c, names)) == 0
  {
    AllPlaced(c, st, names);
    AllFramePaths(c, st, names);
    AllSkipped(c, TransferAll(c, st, names).1, names);
  }

  /** A step on entry `n` leaves untouched every path that is neither its
      source nor its destination. */
  lemma StepTouchesOwn(c: Config, st: State, n: Name, q: Path)
    requires q != c.src + [n] && q != Dst(c, n)
    ensures q in TransferOne(c, st, n).1.paths <==> q in st.paths
  {
  }

  /** The tail of a duplicate-free sequence is duplicate-free and misses the head. */
  lemma NoDupTail<T>(s: seq<T>)
    requires NoDup(s) && s != []
    ensures NoDup(s[1..]) && s[0] !in s[1..]
  {
    var rest := s[1..];
    forall i, j | 0 <= i < j < |rest| ensures rest[i] != rest[j] {
      assert rest[i] == s[i + 1] && rest[j] == s[j + 1];
    }
    forall j | 0 <= j < |rest| ensures rest[j] != s[0] {
      assert rest[j] == s[j + 1];
    }
  }

  /** A step for `n0` leaves the source and destination of every other entry
      as they were. */
  lemma StepOthers(c: Config, st: State, n0: Name, rest: seq<Name>)
    requires n0 !in rest
    ensures forall m :: m in rest ==>
      && (Dst(c, m) in TransferOne(c, st, n0).1.paths <==> Dst(c, m) in st.paths)
      && (c.src + [m] in TransferOne(c, st, n0).1.paths <==> c.src + [m] in st.paths)
  {
    forall m | m in rest
      ensures Dst(c, m) in TransferOne(c, st, n0).1.paths <==> Dst(c, m) in st.paths
      ensures c.src + [m] in TransferOne(c, st, n0).1.paths <==> c.src + [m] in st.paths
    {
      SourceInjective(c.src, m, n0);
      DestInjective(c.target, c.created, c.src, m, n0);
      DestSourceClash(c.target, c.created, c.src, m, n0);
      DestSourceClash(c.target, c.created, c.src, n0, m);
      StepTouchesOwn(c, st, n0, Dst(c, m));
      StepTouchesOwn(c, st, n0, c.src + [m]);
    }
  }

  /** A step that passes counts its entry exactly when its destination was
      missing, and leaves the count of the other entries unchanged. */
  lemma StepCount(c: Config, st: State, n0: Name, rest: seq<Name>)
    requires n0 !in rest
    requires TransferOne(c, st, n0).0.Ok?
    ensures var st1 := TransferOne(c, st, n0).1;
      st1.finished + CountAbsent(st1.paths, DestsOf(c, rest))
      == st.finished + CountAbsent(st.paths, DestsOf(c, [n0] + rest))
  {
    var st1 := TransferOne(c, st, n0).1;
    StepOthers(c, st, n0, rest);
    DestsCons(c, [n0] + rest);
    assert ([n0] + rest)[0] == n0 && ([n0] + rest)[1..] == rest;
    CountAbsentCons(st.paths, Dst(c, n0), DestsOf(c, rest));
    var ds := DestsOf(c, rest);
    forall k | 0 <= k < |ds|
      ensures ds[k] in st.paths <==> ds[k] in st1.paths
    {
      assert ds[k] == Dst(c, rest[k]) && rest[k] in rest;
    }
    CountAbsentSame(st.paths, st1.paths, ds);
  }

  /** The loop over the other entries neither creates nor removes the source
      of `n0`. */
  lemma OthersKeepSource(c: Config, st: State, n0: Name, rest: seq<Name>)
    requires n0 !in rest
    ensures c.src + [n0] in TransferAll(c, st, rest).1.paths <==> c.src + [n0] in st.paths
  {
    AllFramePaths(c, st, rest);
    assert c.src + [n0] !in Elems(SourcesOf(c, rest)) by {
      forall k | 0 <= k < |rest| ensures SourcesOf(c, rest)[k] != c.src + [n0] {
        SourceInjective(c.src, rest[k], n0);
      }
    }
    assert c.src + [n0] !in Elems(DestsOf(c, rest)) by {
      forall k | 0 <= k < |rest| ensures DestsOf(c, rest)[k] != c.src + [n0] {
        DestSourceClash(c.target, c.created, c.src, rest[k], n0);
      }
    }
  }

  /** With distinct names, a successful loop counts exactly the destinations
      missing at the start; an entry whose destination existed keeps its
      source, and under move an entry that was transferred has left the
      source folder. */
  lemma {:induction false} AllExact(c: Config, st: State, names: seq<Name>)
    requires NoDup(names)
    ensures var (o, st') := TransferAll(c, st, names);
      o.Pass? ==>
        && st'.finished == st.finished + CountAbsent(st.paths, DestsOf(c, names))
        && (forall n :: n in names && Dst(c, n) in st.paths ==> c.src + [n] in st'.paths)
        && (c.mode == Move ==> forall n :: n in names && Dst(c, n) !in st.paths ==> c.src + [n] !in st'.paths)
    decreases |names|
  {
    if names != [] {
      var n0, rest := names[0], names[1..];
      var step := TransferOne(c, st, n0);
      if step.0.Ok? {
        NoDupTail(names);
        assert names == [n0] + rest;
        AllExact(c, step.1, rest);
        StepOthers(c, st, n0, rest);
        StepCount(c, st, n0, rest);
        OthersKeepSource(c, step.1, n0, rest);
      }
    }
  }

  /** The loop adds no path but a destination, removes none but a source,
      and under copy removes nothing. */
  lemma {:induction false} AllFramePaths(c: Config, st: State, names: seq<Name>)
    ensures var st' := TransferAll(c, st, names).1;
      && st'.paths <= st.paths + Elems(DestsOf(c, names))
      && st.paths - Elems(SourcesOf(c, names)) <= st'.paths
      && (c.mode == Copy ==> st.paths <= st'.paths)
    decreases |names|
  {
    if names != [] {
      DestsCons(c, names);
      var step := TransferOne(c, st, names[0]);
      if step.0.Ok? {
        AllFramePaths(c, step.1, names[1..]);
      }
    }
  }

  /** The entries can all be transferred: each is in the source folder with
      its bucket a directory and is neither the target nor a folder holding
      it, the names are distinct, and the source folder is not the target. */
  ghost predicate Ready(c: Config, names: seq<Name>, paths: set<Path>, dirPaths: set<Path>)
  {
    && (forall n :: n in names ==>
          c.src + [n] in paths && BucketOf(c, n) in dirPaths && !(c.src + [n] <= c.target))
    && NoDup(names) && c.src != c.target
  }

  /** A bucket folder is a source path only when the source folder is the target. */
  lemma BucketSourceClash(c: Config, m: Name, n: Name)
    ensures BucketOf(c, m) == c.src + [n] ==> c.target == c.src
  {
    if BucketOf(c, m) == c.src + [n] {
      SameChild(c.target, c.created(c.src + [m]), c.src, n);
    }
  }

  /** A ready loop with a total to divide by (or nothing to transfer) never fails. */
  lemma {:induction false} AllReady(c: Config, st: State, names: seq<Name>)
    requires Ready(c, names, st.paths, st.dirPaths)
    requires c.total > 0 || CountAbsent(st.paths, DestsOf(c, names)) == 0
    ensures TransferAll(c, st, names).0.Pass?
    decreases |names|
  {
    if names != [] {
      var n0, rest := names[0], names[1..];
      DestsCons(c, names);
      CountAbsentCons(st.paths, Dst(c, n0), DestsOf(c, rest));
      assert c.src + [n0] in st.paths && BucketOf(c, n0) in st.dirPaths;
      var step := TransferOne(c, st, n0);
      var st1 := step.1;
      assert step.0.Ok?;
      assert n0 !in rest by {
        forall j | 0 <= j < |rest| ensures rest[j] != n0 {
          assert rest[j] == names[j + 1];
        }
      }
      forall m | m in rest
        ensures c.src + [m] in st1.paths && BucketOf(c, m) in st1.dirPaths
      {
        assert m in names;
        SourceInjective(c.src, m, n0);
        DestSourceClash(c.target, c.created, c.src, n0, m);
        StepTouchesOwn(c, st, n0, c.src + [m]);
        BucketSourceClash(c, m, n0);
      }
      assert NoDup(rest) by {
        forall i, j | 0 <= i < j < |rest| ensures rest[i] != rest[j] {
          assert rest[i] == names[i + 1] && rest[j] == names[j + 1];
        }
      }
      if c.total == 0 {
        StepKeepsDests(c, st, n0);
        var ds := DestsOf(c, rest);
        forall k | 0 <= k < |ds| && ds[k] in st.paths
          ensures ds[k] in st1.paths
        {
          assert ds[k] == Dst(c, rest[k]);
        }
        CountAbsentMono(st.paths, st1.paths, ds);
      }
      AllReady(c, st1, rest);
    }
  }

  /** Running the loop over `a + b` is running it over `a` and then, if that
      succeeded, over `b`: directories first, then files. */
  lemma {:induction false} AllAppend(c: Config, st: State, a: seq<Name>, b: seq<Name>)
    ensures TransferAll(c, st, a + b) ==
      (var ra := TransferAll(c, st, a); if ra.0.Fail? then ra else TransferAll(c, ra.1, b))
    decreases |a|
  {
    if a == [] {
      assert a + b == b;
    } else {
      assert (a + b)[0] == a[0] && (a + b)[1..] == a[1..] + b;
      var step := TransferOne(c, st, a[0]);
      if step.0.Ok? {
        AllAppend(c, step.1, a[1..], b);
      }
    }
  }

  // ---------------------------------------------------------------------------
  // The loop as written

  /** As written, under copy a step is the corrected step; under move, an
      entry that is transferred stops the run with the error that it is
      missing from the source folder, after it was moved and before it is
      counted or reported. */
  lemma AsWrittenStep(c: Config, st: State, n: Name)
    ensures c.mode == Copy ==> TransferOneAsWritten(c, st, n) == TransferOne(c, st, n)
    ensures c.mode == Move && c.src + [n] in st.paths && Dst(c, n) !in st.paths && BucketOf(c, n) in st.dirPaths ==>
      var (r, st') := TransferOneAsWritten(c, st, n);
      && r == Err(Missing(n))
      && st'.paths == st.paths - {c.src + [n]} + {Dst(c, n)}
      && st'.finished == st.finished && st'.progress == st.progress && st'.log == st.log
    ensures c.mode == Move && !(c.src + [n] in st.paths && Dst(c, n) !in st.paths && BucketOf(c, n) in st.dirPaths) ==>
      TransferOneAsWritten(c, st, n) == TransferOne(c, st, n)
  {
    if c.src + [n] in st.paths && Dst(c, n) !in st.paths {
      assert c.src + [n] != Dst(c, n);
    }
  }

  /** Under move, as written, a ready loop over two or more entries whose
      destinations are missing moves the first entry and stops there: the
      second stays in the source folder and nothing is counted. */
  lemma AsWrittenMoveStopsAtFirst(c: Config, st: State, names: seq<Name>)
    requires c.mode == Move
    requires Ready(c, names, st.paths, st.dirPaths) && |names| >= 2
    requires Dst(c, names[0]) !in st.paths && Dst(c, names[1]) !in st.paths
    ensures var (o, st') := TransferAllAsWritten(c, st, names);
      && o == Fail(Missing(names[0]))
      && Dst(c, names[0]) in st'.paths && c.src + [names[0]] !in st'.paths
      && c.src + [names[1]] in st'.paths && Dst(c, names[1]) !in st'.paths
      && st'.finished == st.finished && st'.log == st.log
  {
    var n0, n1 := names[0], names[1];
    assert n0 in names && n1 in names && n0 != n1;
    AsWrittenStep(c, st, n0);
    SourceInjective(c.src, n1, n0);
    DestInjective(c.target, c.created, c.src, n1, n0);
    DestSourceClash(c.target, c.created, c.src, n0, n1);
  }

  /** The corrected loop, on the same input, moves every entry whose
      destination is missing: it ends successfully with each of them at its
      destination and gone from the source folder, and counts them all. */
  lemma CorrectedMoveMovesAll(c: Config, st: State, names: seq<Name>)
    requires c.mode == Move && c.total > 0
    requires Ready(c, names, st.paths, st.dirPaths)
    ensures var (o, st') := TransferAll(c, st, names);
      && o == Pass
      && (forall n :: n in names ==> Dst(c, n) in st'.paths)
      && (forall n :: n in names && Dst(c, n) !in st.paths ==> c.src + [n] !in st'.paths)
      && st'.finished == st.finished + CountAbsent(st.paths, DestsOf(c, names))
  {
    AllReady(c, st, names);
    AllPlaced(c, st, names);
    AllExact(c, st, names);
  }
}
